=== FILE: README.md ===
# lightlog and the VPN-box Telegram bot, modelled in Dafny

This project models two small services of a home-server configuration.

**lightlog** is a tiny time-series store behind an HTTP API.
- `POST /write/<thing>` takes numeric form fields and stamps them with the current UTC time. It appends the resulting record to an in-memory write buffer. The buffer is keyed by the shard file of the record's day, `<store>/<thing>/<yyyy>/<mm>/<dd>.json`.
- `GET /read/<thing>/<year>/<month>/<day>.json` returns the records of one day's shard.
- A periodic flush swaps the buffer out. For each buffered shard, in insertion order, it sorts the new records by timestamp and appends them to what the shard file already holds. It writes the result to `<shard>.0` and renames that file onto the shard.
- When every shard is written, the flush runs an optional shell hook. The hook receives the store prefix and the names of yesterday's and today's shard files.

**vpnbox-telegram** is a Telegram bot that connects the box to one of several VPN "flavours". The model covers its decision logic:
- configuration validation: autofilling the flavour list from the installed `vpnbox-*` programs, and rejecting an empty list;
- the chat-ID filter;
- the inline menu;
- the command run for a pressed button;
- the reply text, with backticks escaped and an emoji for the exit code.

## How the model is built

- The store is a value `Store(root, buffer, disk)`. Every handler is a pure function of the store. `Write` returns a new store and a `Response` (status, body, whether the CORS header is set). `Read` returns only a `Response` and `AsyncRead` only the day's records, since reading changes nothing.
- The disk is a map from paths to `Parsed(records)` or `Corrupt`. A path that is not in the map is a file that does not exist.
- The buffer keeps Python's dict insertion order: an `order` sequence plus an `entries` map.
- The things the code gets from outside are parameters:
  - the clock (`now`);
  - Python's `float()` on one argument (`parseFloat`);
  - which shard writes raise (`fails`);
  - the hook's exit code;
  - the directory listing of `/usr/local/sbin`;
  - what a launched VPN program printed.
- Python's `format(n, "04d")`, `str(n)` and `int(s)` are written out on strings (module `Decimal`), so that shard paths and request segments are real text.
- `list.sort` is a stable insertion sort (module `Sorting`). It is proved a permutation, sorted and stable.
- JSON is modelled as the identity on record lists. A shard file that does not parse is `Corrupt`.

Behaviour of the code that a reader might not expect, which the model follows as written:
- `async_read` returns `[]` when the shard file is missing or does not parse. Buffered records for that day are then not returned at all, and only an existing, parsing file has the buffer appended (`lightlog.py:66-79`).
- A flush sorts only the newly buffered records. The existing file content is kept as it is and put in front (`lightlog.py:95-98`).
- A shard file that cannot be read or parsed counts as empty. The flush then overwrites it (`lightlog.py:96-100`).
- A shard write that raises ends the flush. Later shards of the snapshot are not written, and their records are gone because the buffer was already swapped out. The hook does not run (`lightlog.py:87-106`).
- The button handler of the bot is registered without the chat-ID filter (`vpnbox-telegram.py:221`), so `HandleReplyToStart` takes no chat ID.
- Backslashes in a command's output are not escaped, only backticks (`vpnbox-telegram.py:185`).

## Model

| member | source | states |
|---|---|---|
| `Decimal.Pad` | roles/utils/files/lightlog.py:31 | the padded text is exactly as wide as asked, or as wide as the sign and digits when they need more, so digits are never cut off; it starts with `-` exactly for a negative number, and every other character is a digit |
| `Decimal.PadFits` | roles/utils/files/lightlog.py:31 | a natural number below `10^width` is padded to exactly `width` characters |
| `Decimal.Str` | roles/utils/files/lightlog.py:134 | `str(n)` is a minus sign for a negative number followed by the digits of its magnitude, with no padding |
| `Decimal.ParseInt` | roles/utils/files/lightlog.py:53-55 | `int()` accepts exactly a non-empty run of digits, optionally after one `+` or `-`; only a leading `-` gives a negative number, and the magnitude is the value of the digits |
| `Decimal.PadRoundTrip` | roles/utils/files/lightlog.py:31 | the zero-padded text of any integer, at any width, reads back through `int()` as that integer |
| `Decimal.PadInjective` | roles/utils/files/lightlog.py:31 | two different numbers never get the same padded path segment |
| `LightlogPaths.ShardName` | roles/utils/files/lightlog.py:30-31 | the shard path is the store prefix, then the thing, then year, month and `<day>.json` |
| `LightlogPaths.ShardNameRoundTrip` | roles/utils/files/lightlog.py:30-31 | a shard path decodes back to exactly the thing and date it was built from |
| `LightlogPaths.ShardNameInjective` | roles/utils/files/lightlog.py:30-31 | different things or days never share a shard file |
| `LightlogPaths.TmpOf` | roles/utils/files/lightlog.py:102 | the temporary file sits in the same directory as the shard, and its name ends in `.0` |
| `LightlogPaths.TmpIsNotShardFile` | roles/utils/files/lightlog.py:102 | the temporary `<name>.0` file never ends in `.json`, so it is never itself a shard |
| `LightlogPaths.TmpOfInjective` | roles/utils/files/lightlog.py:102 | different shards never share a temporary file |
| `Text.SplitJoin` | roles/utils/files/lightlog.py:119 | joining parts that hold no separator and splitting again gives the parts back |
| `LightlogStore.ParseFields` | roles/utils/files/lightlog.py:38 | parsing fails exactly when some argument is not a float; otherwise every argument keeps its key and gets its parsed value |
| `LightlogStore.AsDict` | roles/utils/files/lightlog.py:38-39 | the record seen as the Python dict: every float field under its own key, plus a `timestamp` key holding the record's instant |
| `LightlogStore.Stamp` | roles/utils/files/lightlog.py:38-39 | the record holds every argument plus `timestamp`, and `timestamp` is the current time even when a field has that name |
| `LightlogStore.Append` | roles/utils/files/lightlog.py:44 | the key's list gains exactly the new record at its end; every other key keeps its list; a new key goes last in iteration order |
| `LightlogStore.Write` | roles/utils/files/lightlog.py:34-45 | 400 with "only floats supported" exactly when some value is not a float, and then nothing changes; otherwise 200 with the stamped record, which is appended to the buffer of today's shard and nowhere else |
| `LightlogStore.AsyncRead` | roles/utils/files/lightlog.py:66-79 | a missing or corrupt shard reads as empty; a parsed one reads as its records followed by the buffered ones |
| `LightlogStore.Read` | roles/utils/files/lightlog.py:48-63 | the CORS header is always set; 400 exactly when a date segment is not an integer; otherwise the day's data, with 404 exactly when it is empty |
| `Calendar.DayBefore` | roles/utils/files/lightlog.py:116 | yesterday exists for every valid date but the first one, and it is a valid, earlier date |
| `LightlogHook.DayFile` | roles/utils/files/lightlog.py:117-118 | a day's file name is the 4-wide year, `/`, the 2-wide month, `/`, the 2-wide day and `.json` |
| `LightlogHook.DayFileLength` | roles/utils/files/lightlog.py:117-118 | for a real date the year takes exactly four digits, month and day two each, and the name is 15 characters long |
| `LightlogHook.DayFileRoundTrip` | roles/utils/files/lightlog.py:117-118 | the `yyyy/mm/dd.json` name of a day reads back as that day |
| `LightlogHook.FetchShards` | roles/utils/files/lightlog.py:115-119 | the hint exists for every date but the first one, where computing yesterday overflows |
| `LightlogHook.FetchShardsRoundTrip` | roles/utils/files/lightlog.py:115-119 | the hint is exactly yesterday's day file, a comma and today's day file, each `yyyy/mm/dd.json` zero-padded; it splits at that one comma and each part reads back as its date |
| `LightlogHook.Label` | roles/utils/files/lightlog.py:134 | the log label is `ok` exactly for exit code 0 |
| `LightlogHook.LabelNamesCode` | roles/utils/files/lightlog.py:134 | a non-zero exit code is logged as `error ` followed by `str()` of the code, and the code reads back from the label |
| `LightlogHook.RunHelperCmd` | roles/utils/files/lightlog.py:109-137 | nothing runs when the template is empty, and the run fails when computing yesterday overflows; otherwise the command gets the store prefix and the two-day hint, and its exit code is returned |
| `Sorting.SortBy` | roles/utils/files/lightlog.py:95 | sorting returns a permutation of its input |
| `Sorting.SortBySorted` | roles/utils/files/lightlog.py:95 | under a total preorder the result is sorted |
| `Sorting.SortByStable` | roles/utils/files/lightlog.py:95 | elements with equal keys keep their relative order |
| `Calendar.TimeLeq` | roles/utils/files/lightlog.py:95 | `datetime`'s `<=`: an earlier date comes first, and on the same date the earlier time of day |
| `Calendar.TimeLeqIsKeyOrder` | roles/utils/files/lightlog.py:95 | for real instants, comparing field by field agrees with comparing one number that counts microseconds |
| `LightlogFlush.ByTimestamp` | roles/utils/files/lightlog.py:95 | the sort key `x["timestamp"]`: records are compared by their timestamps alone |
| `LightlogFlush.ByTimestampTotalPreorder` | roles/utils/files/lightlog.py:95 | comparing records by timestamp is a total preorder |
| `LightlogFlush.Existing` | roles/utils/files/lightlog.py:96-100 | a missing or unparsable shard file counts as holding no records; a parsed one counts as holding its records |
| `LightlogFlush.Merge` | roles/utils/files/lightlog.py:95-98 | the new shard content is the old content unchanged, followed by a timestamp-sorted permutation of the buffered records |
| `LightlogFlush.MergeIsPermutation` | roles/utils/files/lightlog.py:95-98 | the new shard content is a permutation of the old content followed by the buffered records: nothing is lost or duplicated |
| `LightlogFlush.Stage` | roles/utils/files/lightlog.py:103-104 | writing the temporary file puts the content there and changes no other file |
| `LightlogFlush.Rename` | roles/utils/files/lightlog.py:105 | the rename moves the temporary file's content onto the shard, replacing what was there; the temporary file is gone and every other file is as it was |
| `LightlogFlush.Persist` | roles/utils/files/lightlog.py:101-105 | after writing one shard it holds the merge, its temporary file is gone, and every other file is untouched |
| `LightlogFlush.ReadersSeeOldOrNew` | roles/utils/files/lightlog.py:101-105 | while the temporary file is written the shard keeps its old content; the rename publishes the whole new content at once |
| `LightlogFlush.PersistAll` | roles/utils/files/lightlog.py:93-105 | the loop stops at the first shard whose write fails; every shard before it holds its merge; every file outside those shards and their temporary files is untouched |
| `LightlogFlush.SwapBuffer` | roles/utils/files/lightlog.py:85-88 | an empty buffer gives no snapshot; otherwise the snapshot is the whole buffer and the store keeps an empty one |
| `LightlogFlush.AsyncDumpBuf` | roles/utils/files/lightlog.py:92-106 | the flush completes exactly when no shard write fails, and only then runs the hook; an abort names the first shard, in buffer order, whose write fails; every shard before it holds its merge and every other file is as it was; every file ends up either as it was or as the merge of its buffered records |
| `LightlogFlush.DumpBuf` | roles/utils/files/lightlog.py:82-89 | with an empty buffer nothing happens; otherwise the buffer is emptied and the snapshot is flushed |
| `LightlogProps.FreshStoreConsistent` | roles/utils/files/lightlog.py:19 | a freshly started server, over any store directory whose parsed shard files hold only records of their own day, satisfies the store invariant: buffer keys are shard paths and every record sits in the shard of its own day |
| `LightlogProps.WritePreservesConsistent` | roles/utils/files/lightlog.py:43-44 | a write keeps the invariant, since the record goes to the shard its own timestamp names |
| `LightlogProps.DumpBufPreservesConsistent` | roles/utils/files/lightlog.py:82-106 | a flush keeps the invariant, whether it completes or aborts |
| `LightlogProps.ReadStaysOnItsDay` | roles/utils/files/lightlog.py:66-79 | in a consistent store a read returns only records stamped on the requested day |
| `LightlogProps.WriteThenReadBeforeFlush` | roles/utils/files/lightlog.py:66-79 | before a flush, a written record is returned last when the day's shard already parses, and the read is empty otherwise |
| `LightlogProps.WriteFlushRead` | roles/utils/files/lightlog.py:92-106 | after a write and a completed flush, reading the record's day returns 200 and includes the record |
| `LightlogProps.ReadOfStoredRecord` | roles/utils/files/lightlog.py:48-63 | a record in a parsed shard file is returned, with 200, by a read of that day |
| `LightlogProps.MergeSortedWhenAppendedInOrder` | roles/utils/files/lightlog.py:95-98 | if the file is sorted and no new record is older than any stored one, the whole shard stays sorted |
| `LightlogFlush.ByTimestampEquivalence` | roles/utils/files/lightlog.py:95 | the sort treats two records as equal exactly when their timestamps are equal |
| `LightlogFlush.EquivalentsByTimestamp` | roles/utils/files/lightlog.py:95 | the records the sort cannot tell apart from a record are exactly those stamped at the same time |
| `LightlogProps.MergeKeepsArrivalOrderOfTies` | roles/utils/files/lightlog.py:95 | new records with the same timestamp are stored in the order they arrived |
| `Sorting.SortedPermutationUnique` | roles/pythons/files/vpnbox-telegram.py:37-39 | under an antisymmetric order two sorted lists with the same elements are the same list |
| `Text.LexLeq` | roles/pythons/files/vpnbox-telegram.py:37 | Python's `<=` on strings, which `sorted` uses: character by character, a prefix first |
| `Text.LexLeqFirstDifference` | roles/pythons/files/vpnbox-telegram.py:37 | a string sorts at or before another exactly when it is a prefix of it or, at the first differing position, has the smaller character |
| `Text.AfterLast` | roles/pythons/files/vpnbox-telegram.py:38 | `rsplit("-", 1)[1]` is the suffix after the last dash, and it holds no dash |
| `Text.Upper` | roles/pythons/files/vpnbox-telegram.py:138 | upper-casing keeps the length and maps each character on its own |
| `VpnboxTelegram.VpnPrograms` | roles/pythons/files/vpnbox-telegram.py:38 | the glob keeps exactly the listed names that start with `vpnbox-`, each as often as it is listed, and drops every other name |
| `VpnboxTelegram.FlavourOf` | roles/pythons/files/vpnbox-telegram.py:38 | the flavour is the part of the program name after its last dash: it holds no dash and comes after the `vpnbox-` prefix |
| `VpnboxTelegram.FlavoursOf` | roles/pythons/files/vpnbox-telegram.py:38 | the generator yields one flavour per program, in the same order, each the name's part after its last dash |
| `VpnboxTelegram.InstalledFlavours` | roles/pythons/files/vpnbox-telegram.py:37-39 | the autofilled list is a sorted permutation of the installed programs' flavour names |
| `VpnboxTelegram.InstalledFlavoursUnique` | roles/pythons/files/vpnbox-telegram.py:37-39 | the autofilled list is the only sorted arrangement of the installed flavour names |
| `VpnboxTelegram.AutofillVpnFlavours` | roles/pythons/files/vpnbox-telegram.py:31-41 | a given non-empty list is kept; a missing, null or empty one is replaced by the installed flavours |
| `VpnboxTelegram.CheckVpnFlavours` | roles/pythons/files/vpnbox-telegram.py:43-48 | validation fails with "vpn_flavours must have at least one entry" exactly when the list is empty |
| `VpnboxTelegram.ValidateConfig` | roles/pythons/files/vpnbox-telegram.py:31-48 | an accepted configuration keeps the API key and chat IDs, keeps a given non-empty flavour list, replaces a missing or empty one by the sorted installed flavours, and has at least one flavour; a rejection says that `vpn_flavours` needs an entry |
| `VpnboxTelegram.ValidateConfigAccepts` | roles/pythons/files/vpnbox-telegram.py:31-48 | a configuration is accepted exactly when it lists a flavour itself or some `vpnbox-*` program is installed |
| `VpnboxTelegram.CheckUpdate` | roles/pythons/files/vpnbox-telegram.py:65-66 | a chat passes the filter exactly when its ID is among the configured ones |
| `VpnboxTelegram.PrepareVpnMenu` | roles/pythons/files/vpnbox-telegram.py:134-144 | the menu has one row with an upper-cased button per flavour that sends that flavour back, then a row holding only the disconnect button |
| `VpnboxTelegram.CommandFor` | roles/pythons/files/vpnbox-telegram.py:165-168 | the program is always `vpnbox-<flavour>`; `--disconnect` exactly for the disconnect choice, using the first flavour; `--connect` for the chosen flavour otherwise |
| `VpnboxTelegram.MenuButtonsConnect` | roles/pythons/files/vpnbox-telegram.py:136-168 | a flavour button connects to its own flavour, unless the flavour is literally named `disconnect` |
| `VpnboxTelegram.DisconnectButtonDisconnects` | roles/pythons/files/vpnbox-telegram.py:141-166 | the disconnect button disconnects the first configured flavour |
| `VpnboxTelegram.WaitingText` | roles/pythons/files/vpnbox-telegram.py:163 | the waiting message starts with the hourglass and holds the chosen button's data at a fixed place |
| `VpnboxTelegram.EscapeBackticks` | roles/pythons/files/vpnbox-telegram.py:185 | escaping never shortens the output and leaves output without backticks unchanged |
| `VpnboxTelegram.EscapeRoundTrip` | roles/pythons/files/vpnbox-telegram.py:185 | escaping loses nothing: removing the added backslashes gives the output back |
| `VpnboxTelegram.EscapedBackticksAreGuarded` | roles/pythons/files/vpnbox-telegram.py:185 | every backtick of the escaped output has a backslash right before it |
| `VpnboxTelegram.ExitEmoji` | roles/pythons/files/vpnbox-telegram.py:186 | the check-mark emoji exactly for exit code 0, the cross otherwise |
| `VpnboxTelegram.ReplyHead` | roles/pythons/files/vpnbox-telegram.py:189 | the header starts with the exit emoji, holds the exit code's text at a fixed place, and ends by opening a code block |
| `VpnboxTelegram.ReplyText` | roles/pythons/files/vpnbox-telegram.py:188-190 | the reply is the exit-code header, then exactly the escaped output, then a closing code fence |
| `VpnboxTelegram.ReplyTextReadsBack` | roles/pythons/files/vpnbox-telegram.py:185-191 | from the reply one reads back whether the command succeeded, its exit code, and its exact output |
| `VpnboxTelegram.HandleReplyToStart` | roles/pythons/files/vpnbox-telegram.py:155-191 | the chosen command runs; the message first says what was selected, then shows either "Cannot find executable to run" or the reply text |

## Left out

- HTTP routing, JSON headers and the Twisted reactor are not modelled: the thread pool, `deferToThread`, `LoopingCall` scheduling and `startup_cmd_and_schedule`. Each handler is one function of the store. That `LoopingCall` stops after a failed flush is not modelled.
- A shard file whose JSON is not a list (for example `{}`) is not modelled: the disk holds record lists or `Corrupt`. In the code a read returns such an object as it is, or raises `TypeError` when records are buffered for that day (`lightlog.py:77-79`). A flush swallows the same `TypeError` and overwrites the file (`lightlog.py:98-99`), as it does for `Corrupt`.
- The filesystem is a map. `mkdir`, a partially written temporary file, file permissions and path normalisation by `pathlib` are left out. A failing write is named by the `fails` set.
- Floats are a parameter (`parseFloat`). JSON encoding, `isoformat` and the key order of the JSON output are not modelled.
- Form keys arrive as text. The UTF-8 decoding of the keys, and the `ValueError` it can raise, are left out. Only the first value `v[0]` of each argument is used, as in the code.
- `LightlogHook.RunHelperCmd`: models the command by its template, context and exit code only. Filling the template with `str.format`, the `bash -c` subprocess, the timeout and the log lines are left out. The same function stands for the start-up command `before_start_cmd`.
- `LightlogHook.RunHelperCmd`: a template that `str.format` rejects is not modelled. Other braces, such as a bash `${HOME}`, make `format` raise `KeyError`, `IndexError` or `ValueError` (`lightlog.py:122-123`). That happens after every shard was written, so `async_dump_buf` raises, while the model reports `Completed(Ran(...))`.
- `Decimal.ParseInt`: accepts an optional sign and ASCII digits only. Python's `int()` also accepts surrounding whitespace, `_` separators and non-ASCII digits.
- `Decimal.ParseInt`: has no digit limit. Python 3.11 and later raise `ValueError` for more than 4300 digits, so the code answers 400 for such a date segment where the model parses it and answers 404.
- `VpnboxTelegram.VpnPrograms`: keeps the listing's order, but no contract states it. The glob's order depends on the filesystem, and the only user sorts the result.
- `Text.Upper`: upper-cases ASCII letters only. Python's `str.upper` also maps other scripts.
- `Calendar.DayBefore`: proleptic Gregorian dates from year 1 to 9999, as Python's `datetime` has them. The time of day is kept in microseconds and plays no part in the date arithmetic.
- The Telegram API, the job queue, the handler registration, `handle_cmd_start`, `handle_unauthorized`, `handle_unknown`, the logging set-up and the search of three configuration files are left out. They are I/O around the decisions modelled here.
- pydantic's schema checking (`extra="forbid"`, types of fields, `Secret`) is left out. The raw configuration is already typed.
- `VpnboxTelegram.HandleReplyToStart`: only `FileNotFoundError` is modelled when starting the program (`NotFound`). Another `OSError` from `create_subprocess_exec`, such as `PermissionError`, propagates out of the handler and leaves the waiting text in place (`vpnbox-telegram.py:171-176`); `CommandRun` has no such case.
- The bytes-to-text decoding of the command output is left out. The output is modelled as text.
- `notificator.py` and `internetstatus.py` are not part of this model.

=== FILE: calendar.dfy ===
/**
 * UTC calendar dates and instants as Python's `datetime` holds them: a
 * proleptic Gregorian date in years 1..9999 plus a time of day, compared
 * field by field.
 */
module Calendar {
  import opened Wrappers

  const MicrosPerDay: nat := 86_400_000_000

  datatype Date = Date(year: int, month: int, day: int)

  /** An instant: a date and the microseconds elapsed since its midnight. */
  datatype DateTime = DateTime(date: Date, micros: nat)

  predicate IsLeapYear(y: int) {
    y % 4 == 0 && (y % 100 != 0 || y % 400 == 0)
  }

  function DaysInMonth(year: int, month: int): (n: int)
    requires 1 <= month <= 12
    ensures 28 <= n <= 31
  {
    if month == 2 then (if IsLeapYear(year) then 29 else 28)
    else if month == 4 || month == 6 || month == 9 || month == 11 then 30
    else 31
  }

  /** The dates Python's `date` accepts. */
  predicate ValidDate(d: Date) {
    && 1 <= d.year <= 9999
    && 1 <= d.month <= 12
    && 1 <= d.day <= DaysInMonth(d.year, d.month)
  }

  predicate ValidDateTime(t: DateTime) {
    ValidDate(t.date) && t.micros < MicrosPerDay
  }

  const FirstDate := Date(1, 1, 1)
  const LastDate := Date(9999, 12, 31)

  /** Chronological order of dates (year, then month, then day). */
  predicate DateLess(a: Date, b: Date) {
    || a.year < b.year
    || (a.year == b.year && a.month < b.month)
    || (a.year == b.year && a.month == b.month && a.day < b.day)
  }

  /** Chronological order of instants, as `datetime` compares them. */
  predicate TimeLeq(a: DateTime, b: DateTime) {
    DateLess(a.date, b.date) || (a.date == b.date && a.micros <= b.micros)
  }

  /**
   * An instant as one number, counting as if every year had 13 months and
   * every month 32 days; the gaps keep the chronological order intact.
   */
  function TimeKey(t: DateTime): int {
    ((t.date.year * 13 + t.date.month) * 32 + t.date.day) * MicrosPerDay + t.micros
  }

  /** Comparing instants field by field is comparing them as numbers. */
  lemma TimeLeqIsKeyOrder(a: DateTime, b: DateTime)
    requires ValidDateTime(a) && ValidDateTime(b)
    ensures TimeLeq(a, b) <==> TimeKey(a) <= TimeKey(b)
  {
  }

  /**
   * `d - timedelta(days=1)`; `None` for the first representable date,
   * where Python raises `OverflowError`.
   */
  function DayBefore(d: Date): (r: Option<Date>)
    requires ValidDate(d)
    ensures r.None? <==> d == FirstDate
    ensures r.Some? ==> ValidDate(r.value) && DateLess(r.value, d)
  {
    if d.day > 1 then Some(Date(d.year, d.month, d.day - 1))
    else if d.month > 1 then Some(Date(d.year, d.month - 1, DaysInMonth(d.year, d.month - 1)))
    else if d.year > 1 then Some(Date(d.year - 1, 12, 31))
    else None
  }

  /** `d + timedelta(days=1)`; `None` for the last representable date. */
  function DayAfter(d: Date): (r: Option<Date>)
    requires ValidDate(d)
    ensures r.None? <==> d == LastDate
    ensures r.Some? ==> ValidDate(r.value) && DateLess(d, r.value)
  {
    if d.day < DaysInMonth(d.year, d.month) then Some(Date(d.year, d.month, d.day + 1))
    else if d.month < 12 then Some(Date(d.year, d.month + 1, 1))
    else if d.year < 9999 then Some(Date(d.year + 1, 1, 1))
    else None
  }

  /** Going one day back and one day forward returns to the same date. */
  lemma DayBeforeThenAfter(d: Date)
    requires ValidDate(d) && d != FirstDate
    ensures DayAfter(DayBefore(d).value) == Some(d)
  {
  }

  /** The day before is the latest valid date strictly earlier than `d`: no date lies in between. */
  lemma DayBeforeIsAdjacent(d: Date, x: Date)
    requires ValidDate(d) && d != FirstDate && ValidDate(x)
    ensures !(DateLess(DayBefore(d).value, x) && DateLess(x, d))
  {
  }

  /** `TimeLeq` orders every pair of instants, transitively. */
  lemma TimeLeqTotalPreorder()
    ensures forall a, b :: TimeLeq(a, b) || TimeLeq(b, a)
    ensures forall a, b, c :: TimeLeq(a, b) && TimeLeq(b, c) ==> TimeLeq(a, c)
  {
  }

  /** Two instants each at or before the other are the same instant. */
  lemma TimeLeqAntisymmetric(a: DateTime, b: DateTime)
    requires TimeLeq(a, b) && TimeLeq(b, a)
    ensures a == b
  {
  }
}

=== FILE: decimal.dfy ===
/**
 * Decimal integers as Python writes and reads them: `str(n)`, the zero-padded
 * `format(n, "0<w>d")` used by the shard paths, and `int(s)` used on the date
 * segments of a read request.
 */
module Decimal {
  import opened Wrappers

  predicate IsDigit(c: char) {
    '0' <= c <= '9'
  }

  predicate AllDigits(s: string) {
    forall i :: 0 <= i < |s| ==> IsDigit(s[i])
  }

  function DigitChar(d: nat): (c: char)
    requires d < 10
    ensures IsDigit(c)
  {
    ('0' as int + d) as char
  }

  function DigitValue(c: char): (d: nat)
    requires IsDigit(c)
    ensures d < 10 && DigitChar(d) == c
  {
    c as int - '0' as int
  }

  /** The decimal digits of `n`, most significant first, without leading zeros. */
  function Digits(n: nat): (s: string)
    ensures |s| > 0 && AllDigits(s)
    ensures |s| > 1 ==> s[0] != '0'
    decreases n
  {
    if n < 10 then [DigitChar(n)] else Digits(n / 10) + [DigitChar(n % 10)]
  }

  /** The number a string of digits denotes (leading zeros allowed). */
  function Value(s: string): nat
    requires AllDigits(s)
  {
    if s == [] then 0 else Value(s[..|s| - 1]) * 10 + DigitValue(s[|s| - 1])
  }

  /** `k` zero characters (none when `k` is not positive). */
  function Zeros(k: int): (z: string)
    ensures |z| == if k <= 0 then 0 else k
    ensures forall i :: 0 <= i < |z| ==> z[i] == '0'
    decreases k
  {
    if k <= 0 then [] else ['0'] + Zeros(k - 1)
  }

  function Abs(n: int): nat {
    if n < 0 then -n else n
  }

  /**
   * Python's `format(n, "0<width>d")`: a minus sign for negative numbers,
   * then zeros until the whole text is `width` long, then the digits.
   * A number that is already wider is never truncated.
   */
  function Pad(n: int, width: nat): (s: string)
    ensures |s| >= width && |s| >= |Digits(Abs(n))|
    ensures |s| == (var w := |Digits(Abs(n))| + (if n < 0 then 1 else 0); if w >= width then w else width)
    ensures |s| > 0 && (s[0] == '-' <==> n < 0)
    ensures forall i :: 0 < i < |s| ==> IsDigit(s[i])
    ensures n >= 0 ==> AllDigits(s)
  {
    if n < 0 then "-" + Zeros(width - 1 - |Digits(-n)|) + Digits(-n)
    else Zeros(width - |Digits(n)|) + Digits(n)
  }

  function Pow10(k: nat): nat {
    if k == 0 then 1 else 10 * Pow10(k - 1)
  }

  /** A number below `10^k` has at most `k` digits. */
  lemma {:induction false} DigitsFit(n: nat, k: nat)
    requires 0 < k && n < Pow10(k)
    ensures |Digits(n)| <= k
    decreases k
  {
    if n >= 10 {
      assert k != 1;
      DigitsFit(n / 10, k - 1);
    }
  }

  /** A natural number below `10^width` is padded to exactly `width` characters. */
  lemma PadFits(n: int, width: nat)
    requires 0 < width && 0 <= n < Pow10(width)
    ensures |Pad(n, width)| == width
  {
    DigitsFit(n, width);
  }

  /** Python's `str(n)` for an integer. */
  function Str(n: int): (s: string)
    ensures s == (if n < 0 then "-" else "") + Digits(Abs(n))
  {
    Pad(n, 0)
  }

  /**
   * Python's `int(s)` on an optional sign followed by ASCII digits;
   * `None` is the `ValueError` it raises on anything else.
   */
  function ParseInt(s: string): (r: Option<int>)
    ensures r.Some? <==> (|s| > 0 && AllDigits(s)) || (|s| > 1 && (s[0] == '-' || s[0] == '+') && AllDigits(s[1..]))
    ensures r.Some? && r.value < 0 ==> s[0] == '-'
    ensures r.Some? ==> Abs(r.value) == Value(if IsDigit(s[0]) then s else s[1..])
  {
    if |s| > 0 && (s[0] == '-' || s[0] == '+') then
      var body := s[1..];
      if |body| > 0 && AllDigits(body) then
        var v: int := Value(body);
        Some(if s[0] == '-' then -v else v)
      else None
    else if |s| > 0 && AllDigits(s) then Some(Value(s))
    else None
  }

  lemma {:induction false} ValueOfSnoc(s: string, c: char)
    requires AllDigits(s) && IsDigit(c)
    ensures AllDigits(s + [c]) && Value(s + [c]) == Value(s) * 10 + DigitValue(c)
  {
    assert (s + [c])[..|s + [c]| - 1] == s;
  }

  /** Reading back the digits of `n` gives `n`. */
  lemma {:induction false} ValueOfDigits(n: nat)
    ensures Value(Digits(n)) == n
    decreases n
  {
    if n < 10 {
      assert [DigitChar(n)][..0] == [];
    } else {
      ValueOfDigits(n / 10);
      ValueOfSnoc(Digits(n / 10), DigitChar(n % 10));
    }
  }

  /** Leading zeros do not change the value. */
  lemma {:induction false} ValueIgnoresLeadingZeros(k: int, s: string)
    requires AllDigits(s)
    ensures AllDigits(Zeros(k) + s) && Value(Zeros(k) + s) == Value(s)
    decreases |s|
  {
    var z := Zeros(k);
    if s == [] {
      assert z + s == z;
      ZerosValue(k);
    } else {
      var init := s[..|s| - 1];
      ValueIgnoresLeadingZeros(k, init);
      assert (z + s)[..|z + s| - 1] == z + init;
    }
  }

  lemma {:induction false} ZerosValue(k: int)
    ensures AllDigits(Zeros(k)) && Value(Zeros(k)) == 0
    decreases k
  {
    if k > 0 {
      var z := Zeros(k);
      ZerosValue(k - 1);
      assert z == Zeros(k - 1) + ['0'];
      ValueOfSnoc(Zeros(k - 1), '0');
    }
  }

  /** The padded text parses back to the number, whatever the width. */
  lemma PadRoundTrip(n: int, width: nat)
    ensures ParseInt(Pad(n, width)) == Some(n)
  {
    if n < 0 {
      PadNegativeRoundTrip(n, width);
    } else {
      PadNaturalRoundTrip(n, width);
    }
  }

  lemma PadNaturalRoundTrip(n: nat, width: nat)
    ensures ParseInt(Pad(n, width)) == Some(n)
  {
    var d := Digits(n);
    var s := Zeros(width - |d|) + d;
    assert Pad(n, width) == s;
    ValueOfDigits(n);
    ValueIgnoresLeadingZeros(width - |d|, d);
    ParseUnsigned(s);
  }

  lemma PadNegativeRoundTrip(n: int, width: nat)
    requires n < 0
    ensures ParseInt(Pad(n, width)) == Some(n)
  {
    var body := NegativePadBody(n, width);
    ParseNegative(body);
  }

  /** A negative number pads to a minus sign before the digits of its magnitude. */
  lemma NegativePadBody(n: int, width: nat) returns (body: string)
    requires n < 0
    ensures |body| > 0 && AllDigits(body) && Value(body) == -n
    ensures Pad(n, width) == "-" + body
  {
    var m: nat := -n;
    var d := Digits(m);
    var z := Zeros(width - 1 - |d|);
    body := z + d;
    assert Pad(n, width) == "-" + z + d;
    assert "-" + z + d == "-" + body;
    ValueOfDigits(m);
    ValueIgnoresLeadingZeros(width - 1 - |d|, d);
  }

  lemma ParseUnsigned(s: string)
    requires |s| > 0 && AllDigits(s)
    ensures ParseInt(s) == Some(Value(s))
  {
    assert IsDigit(s[0]);
  }

  lemma ParseNegative(body: string)
    requires |body| > 0 && AllDigits(body)
    ensures ParseInt("-" + body) == Some(-(Value(body) as int))
  {
    assert ("-" + body)[1..] == body;
  }

  /** Different numbers never share a padded text. */
  lemma PadInjective(a: int, b: int, width: nat)
    requires Pad(a, width) == Pad(b, width)
    ensures a == b
  {
    PadRoundTrip(a, width);
    PadRoundTrip(b, width);
  }
}

=== FILE: lightlog_flush.dfy ===
/**
 * The periodic flush: `dump_buf` swaps the buffer for an empty one and
 * `async_dump_buf` merges every drained shard into its file on disk through
 * a temporary sibling and a rename, then runs the after-dump command.
 */
module LightlogFlush {
  import opened Wrappers
  import opened Calendar
  import opened Sorting
  import opened LightlogPaths
  import opened LightlogStore
  import opened LightlogHook

  /** The sort key of `content.sort(key=lambda x: x["timestamp"])`. */
  predicate ByTimestamp(a: Record, b: Record) {
    TimeLeq(a.timestamp, b.timestamp)
  }

  lemma ByTimestampTotalPreorder()
    ensures TotalPreorder(ByTimestamp)
  {
    TimeLeqTotalPreorder();
  }

  /** Two records sort as equals exactly when they carry the same timestamp. */
  lemma ByTimestampEquivalence(a: Record, b: Record)
    ensures (ByTimestamp(a, b) && ByTimestamp(b, a)) <==> a.timestamp == b.timestamp
  {
    if ByTimestamp(a, b) && ByTimestamp(b, a) {
      TimeLeqAntisymmetric(a.timestamp, b.timestamp);
    }
  }

  /** The records of `s` stamped exactly `t`, in their order in `s`. */
  function WithTimestamp(s: seq<Record>, t: DateTime): seq<Record> {
    if s == [] then []
    else (if s[0].timestamp == t then [s[0]] else []) + WithTimestamp(s[1..], t)
  }

  /** The records the timestamp sort cannot tell apart from `x` are those stamped like `x`. */
  lemma {:induction false} EquivalentsByTimestamp(s: seq<Record>, x: Record)
    ensures Equivalents(s, x, ByTimestamp) == WithTimestamp(s, x.timestamp)
    decreases |s|
  {
    if s != [] {
      ByTimestampEquivalence(x, s[0]);
      EquivalentsByTimestamp(s[1..], x);
    }
  }

  /** The lenient read before a merge: the parsed records, or nothing when the file is missing or corrupt. */
  function Existing(disk: Disk, shard: Path): (r: seq<Record>)
    ensures shard !in disk || disk[shard].Corrupt? ==> r == []
    ensures shard in disk && disk[shard].Parsed? ==> r == disk[shard].records
  {
    if shard in disk && disk[shard].Parsed? then disk[shard].records else []
  }

  /**
   * The content written for one drained shard: what the file already held,
   * unsorted, followed by the drained records sorted by timestamp.
   */
  function Merge(disk: Disk, shard: Path, drained: seq<Record>): (r: seq<Record>)
    ensures var prior := Existing(disk, shard);
      && |r| == |prior| + |drained|
      && r[..|prior|] == prior
      && multiset(r[|prior|..]) == multiset(drained)
      && SortedBy(r[|prior|..], ByTimestamp)
  {
    ByTimestampTotalPreorder();
    SortBySorted(drained, ByTimestamp);
    var prior := Existing(disk, shard);
    var sorted := SortBy(drained, ByTimestamp);
    assert (prior + sorted)[|prior|..] == sorted;
    prior + sorted
  }

  /** The new content is a permutation of the old content followed by the drained records. */
  lemma MergeIsPermutation(disk: Disk, shard: Path, drained: seq<Record>)
    ensures multiset(Merge(disk, shard, drained)) == multiset(Existing(disk, shard) + drained)
  {
    var r := Merge(disk, shard, drained);
    var prior := Existing(disk, shard);
    assert r == r[..|prior|] + r[|prior|..];
  }

  /** Writing `<name>.0`: the shard itself is left as it was. */
  function Stage(disk: Disk, shard: Path, content: seq<Record>): (d: Disk)
    requires |shard.parts| > 0
    ensures TmpOf(shard) in d && d[TmpOf(shard)] == Parsed(content)
    ensures forall q :: q != TmpOf(shard) ==> (q in d <==> q in disk) && (q in d ==> d[q] == disk[q])
  {
    disk[TmpOf(shard) := Parsed(content)]
  }

  /** `os.rename`: the file moves to `dest`, replacing whatever was there. */
  function Rename(disk: Disk, src: Path, dest: Path): (d: Disk)
    requires src in disk && src != dest
    ensures src !in d && dest in d && d[dest] == disk[src]
    ensures forall q :: q != src && q != dest ==> (q in d <==> q in disk) && (q in d ==> d[q] == disk[q])
  {
    (disk - {src})[dest := disk[src]]
  }

  /** One iteration of the `async_dump_buf` loop that succeeds. */
  function Persist(disk: Disk, shard: Path, drained: seq<Record>): (d: Disk)
    requires IsShardFile(shard)
    ensures Persisted(disk, d, shard, drained)
    ensures forall q :: q != shard && q != TmpOf(shard) ==> SameAt(disk, d, q)
  {
    TmpIsNotShardFile(shard);
    Rename(Stage(disk, shard, Merge(disk, shard, drained)), TmpOf(shard), shard)
  }

  /** `q` is present and identical in both disks, or absent from both. */
  predicate SameAt(before: Disk, after: Disk, q: Path) {
    (q in after <==> q in before) && (q in after ==> after[q] == before[q])
  }

  /** The shard holds the merge of its drained records and its temporary file is gone. */
  predicate Persisted(before: Disk, after: Disk, shard: Path, drained: seq<Record>)
    requires |shard.parts| > 0
  {
    shard in after && after[shard] == Parsed(Merge(before, shard, drained)) && TmpOf(shard) !in after
  }

  /** Every file of `after` is as it was in `before` or the merge of a drained shard. */
  ghost predicate UnchangedOrMerged(before: Disk, after: Disk, drained: map<Path, seq<Record>>) {
    forall q :: q in after ==>
      || (q in before && after[q] == before[q])
      || (q in drained && after[q] == Parsed(Merge(before, q, drained[q])))
  }

  /**
   * While the temporary file is being written, a reader of the shard still
   * sees its old content; after the rename it sees the whole new content.
   */
  lemma ReadersSeeOldOrNew(disk: Disk, shard: Path, drained: seq<Record>)
    requires IsShardFile(shard)
    ensures var staged := Stage(disk, shard, Merge(disk, shard, drained));
      && (shard in staged <==> shard in disk)
      && (shard in disk ==> staged[shard] == disk[shard])
      && Persist(disk, shard, drained) == Rename(staged, TmpOf(shard), shard)
      && Persist(disk, shard, drained)[shard] == staged[TmpOf(shard)]
  {
    TmpIsNotShardFile(shard);
  }

  /** The paths one flush of `shards` may change: the shards and their temporary files. */
  function Touched(shards: seq<Path>): (t: set<Path>)
    requires forall i :: 0 <= i < |shards| ==> |shards[i].parts| > 0
    ensures forall i :: 0 <= i < |shards| ==> shards[i] in t && TmpOf(shards[i]) in t
  {
    if shards == [] then {} else {shards[0], TmpOf(shards[0])} + Touched(shards[1..])
  }

  /** Only the shards and their temporary files are touched. */
  lemma {:induction false} TouchedMember(q: Path, shards: seq<Path>) returns (i: nat)
    requires forall k :: 0 <= k < |shards| ==> |shards[k].parts| > 0
    requires q in Touched(shards)
    ensures i < |shards| && (q == shards[i] || q == TmpOf(shards[i]))
    decreases |shards|
  {
    if q == shards[0] || q == TmpOf(shards[0]) {
      i := 0;
    } else {
      var j := TouchedMember(q, shards[1..]);
      i := j + 1;
    }
  }

  /** Neither of two shard files, nor their temporary files, is the other's. */
  predicate Apart(a: Path, b: Path)
    requires |a.parts| > 0 && |b.parts| > 0
  {
    a != b && a != TmpOf(b) && TmpOf(a) != b && TmpOf(a) != TmpOf(b)
  }

  lemma DistinctShardFilesApart(a: Path, b: Path)
    requires IsShardFile(a) && IsShardFile(b) && a != b
    ensures Apart(a, b)
  {
    TmpIsNotShardFile(a);
    TmpIsNotShardFile(b);
    if TmpOf(a) == TmpOf(b) {
      TmpOfInjective(a, b);
    }
  }

  /** A shard apart from every one of `shards` is not touched by flushing them. */
  lemma {:induction false} OutsideTouched(x: Path, shards: seq<Path>)
    requires |x.parts| > 0 && forall i :: 0 <= i < |shards| ==> |shards[i].parts| > 0 && Apart(x, shards[i])
    ensures x !in Touched(shards) && TmpOf(x) !in Touched(shards)
    decreases |shards|
  {
    if shards != [] {
      OutsideTouched(x, shards[1..]);
    }
  }

  ghost predicate DistinctShardFiles(shards: seq<Path>) {
    && (forall i :: 0 <= i < |shards| ==> IsShardFile(shards[i]))
    && (forall i, j :: 0 <= i < j < |shards| ==> shards[i] != shards[j])
  }

  /**
   * The `for shard, content in wb.items()` loop of `async_dump_buf`, over
   * `shards` in dict order. Writing a shard in `fails` raises, which ends
   * the loop there; the result is the new disk and how many shards were
   * written.
   */
  function PersistAll(disk: Disk, shards: seq<Path>, drained: map<Path, seq<Record>>, fails: set<Path>): (r: (Disk, nat))
    requires DistinctShardFiles(shards) && AllDrained(shards, drained)
    ensures StoppedAt(shards, fails, r.1)
    ensures WroteFirst(disk, r.0, shards, drained, r.1)
    ensures UntouchedBeyond(disk, r.0, shards, r.1)
    decreases |shards|
  {
    if shards == [] || shards[0] in fails then
      NothingWritten(disk, shards, drained);
      (disk, 0)
    else
      var s := shards[0];
      var d1 := Persist(disk, s, drained[s]);
      DistinctTail(shards, drained);
      var rest := PersistAll(d1, shards[1..], drained, fails);
      PersistAllStep(disk, d1, shards, drained, rest.0, rest.1);
      StoppedStep(shards, fails, rest.1);
      assert UntouchedBeyond(disk, rest.0, shards, rest.1 + 1);
      (rest.0, rest.1 + 1)
  }

  /** Every shard of the loop has drained records. */
  predicate AllDrained(shards: seq<Path>, drained: map<Path, seq<Record>>) {
    forall i :: 0 <= i < |shards| ==> shards[i] in drained
  }

  /** The loop wrote `n` shards: none of them is in `fails`, and the next one, if any, is. */
  predicate StoppedAt(shards: seq<Path>, fails: set<Path>, n: nat) {
    && n <= |shards|
    && (forall i :: 0 <= i < n ==> shards[i] !in fails)
    && (n < |shards| ==> shards[n] in fails)
  }

  /** The number of shards before the first one that cannot be written. */
  function FirstFailure(shards: seq<Path>, fails: set<Path>): (n: nat)
    ensures StoppedAt(shards, fails, n)
    decreases |shards|
  {
    if shards == [] || shards[0] in fails then 0
    else
      var m := FirstFailure(shards[1..], fails);
      StoppedStep(shards, fails, m);
      m + 1
  }

  /** A loop over the shards can stop at only one place. */
  lemma StoppedAtUnique(shards: seq<Path>, fails: set<Path>, n: nat, m: nat)
    requires StoppedAt(shards, fails, n) && StoppedAt(shards, fails, m)
    ensures n == m
  {
  }

  /** The first `n` shards hold the merge of their drained records. */
  predicate WroteFirst(disk: Disk, d: Disk, shards: seq<Path>, drained: map<Path, seq<Record>>, n: nat)
    requires DistinctShardFiles(shards) && AllDrained(shards, drained)
  {
    n <= |shards| && forall i :: 0 <= i < n ==> Persisted(disk, d, shards[i], drained[shards[i]])
  }

  /** Every file but the first `n` shards and their temporary files is as it was. */
  ghost predicate UntouchedBeyond(disk: Disk, d: Disk, shards: seq<Path>, n: nat)
    requires DistinctShardFiles(shards)
  {
    n <= |shards| && forall q :: q !in Touched(shards[..n]) ==> SameAt(disk, d, q)
  }

  lemma NothingWritten(disk: Disk, shards: seq<Path>, drained: map<Path, seq<Record>>)
    requires DistinctShardFiles(shards) && AllDrained(shards, drained)
    ensures WroteFirst(disk, disk, shards, drained, 0) && UntouchedBeyond(disk, disk, shards, 0)
  {
  }

  lemma StoppedStep(shards: seq<Path>, fails: set<Path>, n: nat)
    requires |shards| > 0 && shards[0] !in fails && StoppedAt(shards[1..], fails, n)
    ensures StoppedAt(shards, fails, n + 1)
  {
    assert forall i :: 1 <= i < n + 1 ==> shards[i] == shards[1..][i - 1];
  }

  /** The shards after the first are still distinct, drained shard files. */
  lemma DistinctTail(shards: seq<Path>, drained: map<Path, seq<Record>>)
    requires DistinctShardFiles(shards) && AllDrained(shards, drained) && |shards| > 0
    ensures DistinctShardFiles(shards[1..]) && AllDrained(shards[1..], drained)
  {
  }

  /** The inductive step of `PersistAll`: the first shard survives the later iterations. */
  lemma PersistAllStep(disk: Disk, d1: Disk, shards: seq<Path>, drained: map<Path, seq<Record>>, d: Disk, n: nat)
    requires DistinctShardFiles(shards) && AllDrained(shards, drained) && |shards| > 0
    requires d1 == Persist(disk, shards[0], drained[shards[0]])
    requires DistinctShardFiles(shards[1..]) && AllDrained(shards[1..], drained)
    requires WroteFirst(d1, d, shards[1..], drained, n)
    requires UntouchedBeyond(d1, d, shards[1..], n)
    ensures WroteFirst(disk, d, shards, drained, n + 1)
    ensures UntouchedBeyond(disk, d, shards, n + 1)
  {
    var s := shards[0];
    var rest := shards[1..];
    forall i | 0 <= i < |rest|
      ensures |rest[i].parts| > 0 && Apart(s, rest[i])
    {
      DistinctShardFilesApart(s, rest[i]);
    }
    OutsideTouched(s, rest[..n]);
    StepPersisted(disk, d1, shards, drained, d, n);
    StepOutside(disk, d1, shards, d, n);
  }

  lemma StepPersisted(disk: Disk, d1: Disk, shards: seq<Path>, drained: map<Path, seq<Record>>, d: Disk, n: nat)
    requires DistinctShardFiles(shards) && 0 < |shards| && n < |shards|
    requires forall i :: 0 <= i < |shards| ==> shards[i] in drained
    requires Persisted(disk, d1, shards[0], drained[shards[0]])
    requires forall i :: 1 <= i < |shards| ==> SameAt(disk, d1, shards[i])
    requires SameAt(d1, d, shards[0]) && SameAt(d1, d, TmpOf(shards[0]))
    requires forall i :: 0 <= i < n ==> Persisted(d1, d, shards[1..][i], drained[shards[1..][i]])
    ensures forall i :: 0 <= i < n + 1 ==> Persisted(disk, d, shards[i], drained[shards[i]])
  {
    forall i | 0 <= i < n + 1
      ensures Persisted(disk, d, shards[i], drained[shards[i]])
    {
      if i == 0 {
        FirstSurvives(disk, d1, d, shards[0], drained[shards[0]]);
      } else {
        assert shards[1..][i - 1] == shards[i];
        PersistedTransfer(disk, d1, d, shards[i], drained[shards[i]]);
      }
    }
  }

  lemma StepOutside(disk: Disk, d1: Disk, shards: seq<Path>, d: Disk, n: nat)
    requires DistinctShardFiles(shards) && 0 < |shards| && n < |shards|
    requires forall q :: q != shards[0] && q != TmpOf(shards[0]) ==> SameAt(disk, d1, q)
    requires forall q :: q !in Touched(shards[1..][..n]) ==> SameAt(d1, d, q)
    ensures forall q :: q !in Touched(shards[..n + 1]) ==> SameAt(disk, d, q)
  {
    assert shards[..n + 1] == [shards[0]] + shards[1..][..n];
    assert Touched(shards[..n + 1]) == {shards[0], TmpOf(shards[0])} + Touched(shards[1..][..n]);
    forall q | q !in Touched(shards[..n + 1])
      ensures SameAt(disk, d, q)
    {
      SameAtTransitive(disk, d1, d, q);
    }
  }

  lemma FirstSurvives(disk: Disk, d1: Disk, d: Disk, s: Path, drained: seq<Record>)
    requires IsShardFile(s) && Persisted(disk, d1, s, drained)
    requires SameAt(d1, d, s) && SameAt(d1, d, TmpOf(s))
    ensures Persisted(disk, d, s, drained)
  {
  }

  /** A shard another iteration did not touch is read the same, so merges the same. */
  lemma PersistedTransfer(disk: Disk, d1: Disk, d: Disk, p: Path, drained: seq<Record>)
    requires |p.parts| > 0 && SameAt(disk, d1, p) && Persisted(d1, d, p, drained)
    ensures Persisted(disk, d, p, drained)
  {
    assert Existing(d1, p) == Existing(disk, p);
  }

  lemma SameAtTransitive(a: Disk, b: Disk, c: Disk, q: Path)
    requires SameAt(a, b, q) && SameAt(b, c, q)
    ensures SameAt(a, c, q)
  {
  }

  /** What one tick of the flush timer did. */
  datatype FlushOutcome =
    | Idle                       // the buffer was empty: nothing written, no command run
    | Completed(hook: HookRun)   // every drained shard written, then the after-dump command
    | Aborted(failed: Path)      // writing this shard raised; later shards and the command were skipped

  /**
   * The swap at the head of `dump_buf`: nothing happens to an empty buffer;
   * otherwise the store gets an empty buffer and the old one is the snapshot.
   */
  function SwapBuffer(st: Store): (r: (Store, Option<Buffer>))
    ensures st.buffer.IsEmpty() ==> r == (st, None)
    ensures !st.buffer.IsEmpty() ==> r.1 == Some(st.buffer) && r.0 == st.(buffer := EmptyBuffer)
  {
    if st.buffer.IsEmpty() then (st, None) else (st.(buffer := EmptyBuffer), Some(st.buffer))
  }

  /** The buffer keys are shard files, which is what `write` puts there. */
  ghost predicate FlushReady(b: Buffer) {
    && b.Valid()
    && (forall p :: p in b.entries ==> IsShardFile(p))
    && (forall i :: 0 <= i < |b.order| ==> IsShardFile(b.order[i]))
  }

  /**
   * `async_dump_buf(wb)`: every drained shard in dict order, then the
   * after-dump command once all of them were written. Shards in `fails`
   * cannot be written; `now` and `exitCode` are the clock and the command's
   * exit code when it runs.
   */
  function AsyncDumpBuf(disk: Disk, wb: Buffer, fails: set<Path>, afterDumpCmd: string, root: Path,
                        now: DateTime, exitCode: int): (r: (Disk, FlushOutcome))
    requires FlushReady(wb) && ValidDateTime(now)
    ensures !r.1.Idle?
    ensures r.1.Completed? <==> forall p :: p in wb.entries ==> p !in fails
    ensures r.1.Completed? ==> r.1.hook == RunHelperCmd(afterDumpCmd, root, now, exitCode)
    ensures r.1.Aborted? ==> r.1.failed in wb.entries && r.1.failed in fails
    ensures r.1.Aborted? <==> FirstFailure(wb.order, fails) < |wb.order|
    ensures r.1.Aborted? ==> r.1.failed == wb.order[FirstFailure(wb.order, fails)]
    ensures forall i :: 0 <= i < FirstFailure(wb.order, fails) ==>
              Persisted(disk, r.0, wb.order[i], wb.entries[wb.order[i]])
    ensures forall q :: q !in Touched(wb.order[..FirstFailure(wb.order, fails)]) ==> SameAt(disk, r.0, q)
    ensures r.1.Completed? ==> forall p :: p in wb.entries ==> Persisted(disk, r.0, p, wb.entries[p])
    ensures forall q :: q !in Touched(wb.order) ==> SameAt(disk, r.0, q)
    ensures UnchangedOrMerged(disk, r.0, wb.entries)
  {
    var (d, written) := PersistAllOf(disk, wb, fails);
    if written < |wb.order| then
      (d, Aborted(wb.order[written]))
    else
      AllWritten(disk, wb, fails, d);
      (d, Completed(RunHelperCmd(afterDumpCmd, root, now, exitCode)))
  }

  /** The loop over a snapshot, with what it leaves behind stated for every key. */
  function PersistAllOf(disk: Disk, wb: Buffer, fails: set<Path>): (r: (Disk, nat))
    requires FlushReady(wb)
    ensures r.1 <= |wb.order| && r.1 == FirstFailure(wb.order, fails)
    ensures forall i :: 0 <= i < r.1 ==> wb.order[i] !in fails
    ensures r.1 < |wb.order| ==> wb.order[r.1] in fails && wb.order[r.1] in wb.entries
    ensures forall i :: 0 <= i < r.1 ==> Persisted(disk, r.0, wb.order[i], wb.entries[wb.order[i]])
    ensures forall q :: q !in Touched(wb.order[..r.1]) ==> SameAt(disk, r.0, q)
    ensures forall q :: q !in Touched(wb.order) ==> SameAt(disk, r.0, q)
    ensures UnchangedOrMerged(disk, r.0, wb.entries)
  {
    assert forall i :: 0 <= i < |wb.order| ==> wb.order[i] in (set q | q in wb.order);
    var (d, written) := PersistAll(disk, wb.order, wb.entries, fails);
    StoppedAtUnique(wb.order, fails, written, FirstFailure(wb.order, fails));
    TouchedPrefix(wb.order, written);
    PersistAllUnchangedOrMerged(disk, wb.order, wb.entries, d, written);
    (d, written)
  }

  /** After the loop every file is either as it was or the merge of a written shard. */
  lemma PersistAllUnchangedOrMerged(disk: Disk, shards: seq<Path>, drained: map<Path, seq<Record>>, d: Disk, n: nat)
    requires DistinctShardFiles(shards) && n <= |shards|
    requires forall i :: 0 <= i < |shards| ==> shards[i] in drained
    requires forall i :: 0 <= i < n ==> Persisted(disk, d, shards[i], drained[shards[i]])
    requires forall q :: q !in Touched(shards[..n]) ==> SameAt(disk, d, q)
    ensures UnchangedOrMerged(disk, d, drained)
  {
    forall q | q in d && q in Touched(shards[..n])
      ensures q in drained && d[q] == Parsed(Merge(disk, q, drained[q]))
    {
      var i := TouchedMember(q, shards[..n]);
      assert shards[..n][i] == shards[i];
      assert Persisted(disk, d, shards[i], drained[shards[i]]);
    }
  }

  /** When the loop ran to the end, every key of the snapshot was written. */
  lemma AllWritten(disk: Disk, wb: Buffer, fails: set<Path>, d: Disk)
    requires FlushReady(wb)
    requires forall i :: 0 <= i < |wb.order| ==> wb.order[i] !in fails
    requires forall i :: 0 <= i < |wb.order| ==> Persisted(disk, d, wb.order[i], wb.entries[wb.order[i]])
    ensures forall p :: p in wb.entries ==> p !in fails
    ensures forall p :: p in wb.entries ==> Persisted(disk, d, p, wb.entries[p])
  {
    forall p | p in wb.entries
      ensures p !in fails && Persisted(disk, d, p, wb.entries[p])
    {
      assert p in (set q | q in wb.order);
      var i :| 0 <= i < |wb.order| && wb.order[i] == p;
    }
  }

  /**
   * One tick of the flush timer: `dump_buf` swaps the buffer out and hands
   * the snapshot to `async_dump_buf`.
   */
  function DumpBuf(st: Store, fails: set<Path>, afterDumpCmd: string, now: DateTime, exitCode: int): (r: (Store, FlushOutcome))
    requires FlushReady(st.buffer) && ValidDateTime(now)
    ensures r.1.Idle? <==> st.buffer.IsEmpty()
    ensures r.1.Idle? ==> r.0 == st
    ensures !r.1.Idle? ==>
      var (disk, outcome) := AsyncDumpBuf(st.disk, st.buffer, fails, afterDumpCmd, st.root, now, exitCode);
      r == (Store(st.root, EmptyBuffer, disk), outcome)
  {
    var (st1, snapshot) := SwapBuffer(st);
    match snapshot
    case None => (st, Idle)
    case Some(wb) =>
      var (disk, outcome) := AsyncDumpBuf(st.disk, wb, fails, afterDumpCmd, st.root, now, exitCode);
      (st1.(disk := disk), outcome)
  }

  lemma TouchedPrefix(shards: seq<Path>, n: nat)
    requires n <= |shards| && forall i :: 0 <= i < |shards| ==> |shards[i].parts| > 0
    ensures Touched(shards[..n]) <= Touched(shards)
  {
    forall q | q in Touched(shards[..n]) ensures q in Touched(shards) {
      var i := TouchedMember(q, shards[..n]);
      assert shards[..n][i] == shards[i];
    }
  }
}

=== FILE: lightlog_hook.dfy ===
/**
 * The decision logic of `run_helper_cmd`: whether a command runs, the
 * "yesterday,today" shard hint handed to it, and the `ok` / `error <code>`
 * label its output lines are logged with.
 */
module LightlogHook {
  import opened Wrappers
  import opened Decimal
  import opened Calendar
  import opened Text
  import opened LightlogPaths

  /** What the command template is formatted with. */
  datatype HookContext = HookContext(storePrefix: Path, fetchShards: string)

  /**
   * One call of `run_helper_cmd`: nothing run for an empty template, the
   * `OverflowError` of stepping back from the first representable day, or
   * the command run with its context, exit code and log label.
   */
  datatype HookRun =
    | NotRun
    | DateOverflow
    | Ran(template: string, context: HookContext, returnCode: int, logLabel: string)

  /** `YYYY/MM/DD.json`: a day's shard file relative to its series directory. */
  function DayFile(d: Date): (r: string)
    ensures r == Pad(d.year, 4) + "/" + Pad(d.month, 2) + "/" + Pad(d.day, 2) + ".json"
  {
    var ps := DateParts(d.year, d.month, d.day);
    assert ps == [Pad(d.year, 4), Pad(d.month, 2), Pad(d.day, 2) + JsonSuffix];
    assert ps[1..][1..] == [ps[2]];
    assert JoinWith(ps[1..], '/') == ps[1] + "/" + ps[2];
    assert JoinWith(ps, '/') == ps[0] + "/" + (ps[1] + "/" + ps[2]);
    JoinWith(ps, '/')
  }

  /** For a real date the year takes exactly four digits and the month and day two each. */
  lemma DayFileLength(d: Date)
    requires ValidDate(d)
    ensures |Pad(d.year, 4)| == 4 && |Pad(d.month, 2)| == 2 && |Pad(d.day, 2)| == 2
    ensures |DayFile(d)| == 15
  {
    assert Pow10(2) == 100 && Pow10(4) == 10000 by {
      assert Pow10(1) == 10 && Pow10(3) == 1000;
    }
    PadFits(d.year, 4);
    PadFits(d.month, 2);
    PadFits(d.day, 2);
  }

  /** Reads a `YYYY/MM/DD.json` text back into its date. */
  function DayFileDate(s: string): Option<Date> {
    var parts := Split(s, '/');
    if |parts| != 3 || !EndsWith(parts[2], JsonSuffix) then None
    else
      match (ParseInt(parts[0]), ParseInt(parts[1]), ParseInt(parts[2][..|parts[2]| - |JsonSuffix|]))
      case (Some(y), Some(m), Some(d)) => Some(Date(y, m, d))
      case _ => None
  }

  /** A day file names the date it was made from. */
  lemma DayFileRoundTrip(d: Date)
    ensures DayFileDate(DayFile(d)) == Some(d)
  {
    var parts := DateParts(d.year, d.month, d.day);
    SplitJoin(parts, '/');
    PadRoundTrip(d.year, 4);
    PadRoundTrip(d.month, 2);
    PadRoundTrip(d.day, 2);
    var dd := Pad(d.day, 2);
    assert parts[2] == dd + JsonSuffix;
    assert (dd + JsonSuffix)[..|dd + JsonSuffix| - |JsonSuffix|] == dd;
  }

  /** `fetch_shards`: the day file of the day before `today`, a comma, then today's. */
  function FetchShards(today: Date): (r: Option<string>)
    requires ValidDate(today)
    ensures r.None? <==> today == FirstDate
  {
    match DayBefore(today)
    case None => None
    case Some(yesterday) => Some(DayFile(yesterday) + "," + DayFile(today))
  }

  /** The hint splits at its comma into yesterday's and today's day files. */
  lemma FetchShardsRoundTrip(today: Date)
    requires ValidDate(today) && today != FirstDate
    ensures var parts := Split(FetchShards(today).value, ',');
      && |parts| == 2
      && DayFileDate(parts[0]) == DayBefore(today)
      && DayFileDate(parts[1]) == Some(today)
      && parts[0] == DayFile(DayBefore(today).value)
      && parts[1] == DayFile(today)
  {
    var yesterday := DayBefore(today).value;
    var y := DateParts(yesterday.year, yesterday.month, yesterday.day);
    var t := DateParts(today.year, today.month, today.day);
    NoCommaInJoin(y);
    NoCommaInJoin(t);
    assert FetchShards(today).value == JoinWith([DayFile(yesterday), DayFile(today)], ',');
    SplitJoin([DayFile(yesterday), DayFile(today)], ',');
    DayFileRoundTrip(yesterday);
    DayFileRoundTrip(today);
  }

  lemma {:induction false} NoCommaInJoin(parts: seq<string>)
    requires |parts| > 0 && forall i :: 0 <= i < |parts| ==> ',' !in parts[i]
    ensures ',' !in JoinWith(parts, '/')
    decreases |parts|
  {
    if |parts| > 1 {
      NoCommaInJoin(parts[1..]);
    }
  }

  /** `error_or_not`: `ok` for a zero exit code, otherwise `error ` and the code. */
  function Label(code: int): (l: string)
    ensures l == "ok" <==> code == 0
  {
    if code == 0 then "ok" else "error " + Str(code)
  }

  /** A failure label names its exit code, so the code can be read back from it. */
  lemma LabelNamesCode(code: int)
    requires code != 0
    ensures StartsWith(Label(code), "error ") && ParseInt(Label(code)[6..]) == Some(code)
    ensures Label(code) == "error " + Str(code)
  {
    PadRoundTrip(code, 0);
    assert Label(code)[6..] == Str(code);
  }

  /**
   * `run_helper_cmd(cmd_template)` at clock reading `now`, where the
   * command, once run, exits with `exitCode`.
   */
  function RunHelperCmd(template: string, store: Path, now: DateTime, exitCode: int): (r: HookRun)
    requires ValidDateTime(now)
    ensures r.NotRun? <==> template == ""
    ensures r.DateOverflow? <==> template != "" && now.date == FirstDate
    ensures r.Ran? ==> && r.template == template
                       && r.context == HookContext(store, FetchShards(now.date).value)
                       && r.returnCode == exitCode
                       && r.logLabel == Label(exitCode)
  {
    if template == "" then NotRun
    else match FetchShards(now.date)
      case None => DateOverflow
      case Some(hint) => Ran(template, HookContext(store, hint), exitCode, Label(exitCode))
  }
}

=== FILE: lightlog_paths.dfy ===
/**
 * Where lightlog keeps a shard: `<store>/<thing>/<YYYY>/<MM>/<DD>.json`,
 * and the `<DD>.json.0` sibling a flush writes before renaming it.
 */
module LightlogPaths {
  import opened Wrappers
  import opened Decimal

  /** A filesystem path as its sequence of components. */
  datatype Path = Path(parts: seq<string>)

  /** The identity of one shard: a series name and a calendar day. */
  datatype ShardId = ShardId(thing: string, year: int, month: int, day: int)

  const JsonSuffix := ".json"
  const TmpSuffix := ".0"

  predicate EndsWith(s: string, suffix: string) {
    |s| >= |suffix| && s[|s| - |suffix|..] == suffix
  }

  /** The three date components `YYYY`, `MM`, `DD.json` of a shard path. */
  function DateParts(year: int, month: int, day: int): (ps: seq<string>)
    ensures |ps| == 3 && EndsWith(ps[2], JsonSuffix)
    ensures forall i :: 0 <= i < 3 ==> ',' !in ps[i] && '/' !in ps[i]
  {
    var dd := Pad(day, 2);
    assert forall i :: 0 <= i < |dd + JsonSuffix| ==> (dd + JsonSuffix)[i] != ',' && (dd + JsonSuffix)[i] != '/' by {
      forall i | 0 <= i < |dd + JsonSuffix| ensures (dd + JsonSuffix)[i] != ',' && (dd + JsonSuffix)[i] != '/' {
        if i >= |dd| { assert (dd + JsonSuffix)[i] == JsonSuffix[i - |dd|]; }
      }
    }
    [Pad(year, 4), Pad(month, 2), dd + JsonSuffix]
  }

  /** `shard_name`: the file holding the samples of `thing` on one day. */
  function ShardName(store: Path, thing: string, year: int, month: int, day: int): (p: Path)
    ensures |p.parts| == |store.parts| + 4
    ensures p.parts[..|store.parts|] == store.parts && p.parts[|store.parts|] == thing
    ensures p.parts[|store.parts| + 1..] == DateParts(year, month, day)
  {
    Path(store.parts + [thing] + DateParts(year, month, day))
  }

  /** Recovers the shard identity from a path, when the path is one `ShardName` produces. */
  function ShardOf(store: Path, p: Path): (r: Option<ShardId>)
    ensures r.Some? ==> p == ShardName(store, r.value.thing, r.value.year, r.value.month, r.value.day)
  {
    var n := |store.parts|;
    if |p.parts| != n + 4 || p.parts[..n] != store.parts || !EndsWith(p.parts[n + 3], JsonSuffix) then None
    else
      var dd := p.parts[n + 3][..|p.parts[n + 3]| - |JsonSuffix|];
      match (ParseInt(p.parts[n + 1]), ParseInt(p.parts[n + 2]), ParseInt(dd))
      case (Some(y), Some(m), Some(d)) =>
        if ShardName(store, p.parts[n], y, m, d) == p then Some(ShardId(p.parts[n], y, m, d)) else None
      case _ => None
  }

  /** Every shard path decodes to the identity it was built from. */
  lemma ShardNameRoundTrip(store: Path, thing: string, year: int, month: int, day: int)
    ensures ShardOf(store, ShardName(store, thing, year, month, day)) == Some(ShardId(thing, year, month, day))
  {
    var p := ShardName(store, thing, year, month, day);
    var n := |store.parts|;
    PadRoundTrip(year, 4);
    PadRoundTrip(month, 2);
    PadRoundTrip(day, 2);
    var last := Pad(day, 2) + JsonSuffix;
    assert p.parts[n + 3] == last;
    assert last[..|last| - |JsonSuffix|] == Pad(day, 2);
  }

  /** Distinct (thing, year, month, day) never share a shard file. */
  lemma ShardNameInjective(store: Path, a: ShardId, b: ShardId)
    requires ShardName(store, a.thing, a.year, a.month, a.day) == ShardName(store, b.thing, b.year, b.month, b.day)
    ensures a == b
  {
    ShardNameRoundTrip(store, a.thing, a.year, a.month, a.day);
    ShardNameRoundTrip(store, b.thing, b.year, b.month, b.day);
  }

  /** A path whose last component names a JSON file. */
  predicate IsShardFile(p: Path) {
    |p.parts| > 0 && EndsWith(p.parts[|p.parts| - 1], JsonSuffix)
  }

  lemma ShardNameIsShardFile(store: Path, thing: string, year: int, month: int, day: int)
    ensures IsShardFile(ShardName(store, thing, year, month, day))
  {
    var p := ShardName(store, thing, year, month, day);
    assert p.parts[|p.parts| - 1] == DateParts(year, month, day)[2];
  }

  /** `shard.with_name(f"{shard.name}.0")`: the temporary sibling a flush writes first. */
  function TmpOf(p: Path): (t: Path)
    requires |p.parts| > 0
    ensures |t.parts| == |p.parts| && t.parts[..|p.parts| - 1] == p.parts[..|p.parts| - 1]
    ensures EndsWith(t.parts[|t.parts| - 1], TmpSuffix)
  {
    var last := p.parts[|p.parts| - 1];
    Path(p.parts[..|p.parts| - 1] + [last + TmpSuffix])
  }

  /** A temporary file is never itself a shard file, so it never overwrites one. */
  lemma TmpIsNotShardFile(p: Path)
    requires |p.parts| > 0
    ensures !IsShardFile(TmpOf(p))
  {
    var last := TmpOf(p).parts[|p.parts| - 1];
    assert last[|last| - 1] == '0';
  }

  /** Distinct shard files have distinct temporary files. */
  lemma TmpOfInjective(p: Path, q: Path)
    requires |p.parts| > 0 && |q.parts| > 0 && TmpOf(p) == TmpOf(q)
    ensures p == q
  {
    var lp := p.parts[|p.parts| - 1];
    var lq := q.parts[|q.parts| - 1];
    assert TmpOf(p).parts[|p.parts| - 1] == lp + TmpSuffix;
    assert TmpOf(q).parts[|q.parts| - 1] == lq + TmpSuffix;
    assert lp == (lp + TmpSuffix)[..|lp|];
    assert lq == (lq + TmpSuffix)[..|lq|];
    assert p.parts == p.parts[..|p.parts| - 1] + [lp];
    assert q.parts == q.parts[..|q.parts| - 1] + [lq];
  }
}

=== FILE: lightlog_props.dfy ===
/**
 * Properties of the lightlog store across several operations: every record
 * sits in the shard of its own day, what a flush makes readable, and how
 * the buffer is (not) consulted before the first flush of a day.
 */
module LightlogProps {
  import opened Wrappers
  import opened Decimal
  import opened Calendar
  import opened Sorting
  import opened LightlogPaths
  import opened LightlogStore
  import opened LightlogHook
  import opened LightlogFlush

  /** Every record of `records` was stamped on the day `id` names. */
  ghost predicate OnDay(records: seq<Record>, id: ShardId) {
    forall r :: r in records ==> r.timestamp.date == Date(id.year, id.month, id.day)
  }

  /**
   * The store invariant: buffer keys are shard paths under the root, and
   * every buffered or parsed on-disk record lies in the shard of its own day.
   */
  ghost predicate Consistent(st: Store) {
    FlushReady(st.buffer) && BufferOnDay(st.root, st.buffer.entries) && DiskOnDay(st.root, st.disk)
  }

  /** Every buffered key is a shard under `root` and holds only records of its day. */
  ghost predicate BufferOnDay(root: Path, entries: map<Path, seq<Record>>) {
    forall p :: p in entries ==> ShardOf(root, p).Some? && OnDay(entries[p], ShardOf(root, p).value)
  }

  /** Every parsed shard file under `root` holds only records of its day. */
  ghost predicate DiskOnDay(root: Path, disk: Disk) {
    forall p :: p in disk && disk[p].Parsed? && ShardOf(root, p).Some? ==> OnDay(disk[p].records, ShardOf(root, p).value)
  }

  /**
   * A server that has just started: the buffer is empty, and the store
   * directory holds whatever earlier runs or the start-up command left there,
   * each parsed file on its own day.
   */
  lemma FreshStoreConsistent(root: Path, disk: Disk)
    requires DiskOnDay(root, disk)
    ensures Consistent(Store(root, EmptyBuffer, disk))
  {
  }

  /** A successful `write` changes nothing but the buffer, which gains the stamped record. */
  lemma WriteAppends(st: Store, thing: string, args: map<string, string>, now: DateTime,
                     parseFloat: string -> Option<real>)
    requires st.buffer.Valid()
    requires Write(st, thing, args, now, parseFloat).1.status == OK
    ensures var (st', resp) := Write(st, thing, args, now, parseFloat);
      && resp.body.RecordBody?
      && resp.body.record.timestamp == now
      && st' == st.(buffer := Append(st.buffer, ShardAt(st.root, thing, now), resp.body.record))
  {
  }

  /** Appending to a shard file key keeps the keys shard files. */
  lemma AppendKeepsFlushReady(b: Buffer, key: Path, r: Record)
    requires FlushReady(b) && IsShardFile(key)
    ensures FlushReady(Append(b, key, r))
  {
    var b' := Append(b, key, r);
    forall i | 0 <= i < |b'.order|
      ensures IsShardFile(b'.order[i])
    {
      if i >= |b.order| {
        assert b'.order[i] == key;
      }
    }
  }

  /** Appending a record to the shard of its own day keeps the store consistent. */
  lemma AppendKeepsConsistent(st: Store, thing: string, r: Record)
    requires Consistent(st)
    ensures Consistent(st.(buffer := Append(st.buffer, ShardAt(st.root, thing, r.timestamp), r)))
  {
    var key := ShardAt(st.root, thing, r.timestamp);
    ShardAtOwnDay(st.root, thing, r);
    AppendKeepsFlushReady(st.buffer, key, r);
    AppendOnDay(st.root, st.buffer, key, r);
  }

  /** The shard a record is written to is a shard file of the record's own day. */
  lemma ShardAtOwnDay(root: Path, thing: string, r: Record)
    ensures IsShardFile(ShardAt(root, thing, r.timestamp))
    ensures ShardOf(root, ShardAt(root, thing, r.timestamp)).Some?
    ensures OnDay([r], ShardOf(root, ShardAt(root, thing, r.timestamp)).value)
  {
    var t := r.timestamp;
    ShardNameRoundTrip(root, thing, t.date.year, t.date.month, t.date.day);
    ShardNameIsShardFile(root, thing, t.date.year, t.date.month, t.date.day);
  }

  /** A record appended under the shard of its own day keeps the buffer on its days. */
  lemma AppendOnDay(root: Path, b: Buffer, key: Path, r: Record)
    requires b.Valid() && BufferOnDay(root, b.entries)
    requires ShardOf(root, key).Some? && OnDay([r], ShardOf(root, key).value)
    ensures BufferOnDay(root, Append(b, key, r).entries)
  {
    var b' := Append(b, key, r);
    forall p | p in b'.entries
      ensures ShardOf(root, p).Some? && OnDay(b'.entries[p], ShardOf(root, p).value)
    {
      if p == key {
        assert b'.entries[p] == b.Get(key) + [r];
      } else {
        assert b'.entries[p] == b.entries[p];
      }
    }
  }

  /** `write` keeps the invariant: the record goes to the shard its own timestamp names. */
  lemma WritePreservesConsistent(st: Store, thing: string, args: map<string, string>, now: DateTime,
                                 parseFloat: string -> Option<real>)
    requires Consistent(st)
    ensures Consistent(Write(st, thing, args, now, parseFloat).0)
  {
    if Write(st, thing, args, now, parseFloat).1.status == OK {
      WriteAppends(st, thing, args, now, parseFloat);
      AppendKeepsConsistent(st, thing, Write(st, thing, args, now, parseFloat).1.body.record);
    }
  }

  /** A flush keeps the invariant, whether it completes or aborts. */
  lemma DumpBufPreservesConsistent(st: Store, fails: set<Path>, afterDumpCmd: string, now: DateTime, exitCode: int)
    requires Consistent(st) && ValidDateTime(now)
    ensures Consistent(DumpBuf(st, fails, afterDumpCmd, now, exitCode).0)
  {
    var r := DumpBuf(st, fails, afterDumpCmd, now, exitCode);
    if !st.buffer.IsEmpty() {
      var d := AsyncDumpBuf(st.disk, st.buffer, fails, afterDumpCmd, st.root, now, exitCode).0;
      assert r.0 == Store(st.root, EmptyBuffer, d);
      FlushKeepsDiskOnDay(st.root, st.disk, st.buffer.entries, d);
      EmptyBufferOnDay(st.root);
    }
  }

  /** A buffer just swapped out is empty, so ready to flush and on its days. */
  lemma EmptyBufferOnDay(root: Path)
    ensures FlushReady(EmptyBuffer) && BufferOnDay(root, EmptyBuffer.entries)
  {
  }

  /** Files that stayed put or got a merge of on-day records are still on their days. */
  lemma FlushKeepsDiskOnDay(root: Path, disk: Disk, drained: map<Path, seq<Record>>, d: Disk)
    requires DiskOnDay(root, disk) && BufferOnDay(root, drained)
    requires UnchangedOrMerged(disk, d, drained)
    ensures DiskOnDay(root, d)
  {
    forall p | p in d && d[p].Parsed? && ShardOf(root, p).Some?
      ensures OnDay(d[p].records, ShardOf(root, p).value)
    {
      if !(p in disk && d[p] == disk[p]) {
        MergeOnDay(disk, p, drained[p], ShardOf(root, p).value);
      }
    }
  }

  /** Merging on-day records into a file holding on-day records keeps every record on its day. */
  lemma MergeOnDay(disk: Disk, p: Path, drained: seq<Record>, id: ShardId)
    requires OnDay(drained, id)
    requires p in disk && disk[p].Parsed? ==> OnDay(disk[p].records, id)
    ensures OnDay(Merge(disk, p, drained), id)
  {
    var prior := Existing(disk, p);
    var merged := Merge(disk, p, drained);
    forall r | r in merged
      ensures r in prior || r in drained
    {
      assert merged == merged[..|prior|] + merged[|prior|..];
      if r in merged[|prior|..] {
        assert r in multiset(merged[|prior|..]);
      }
    }
  }

  /** A read only ever returns records stamped on the day it asks for. */
  lemma ReadStaysOnItsDay(st: Store, thing: string, year: int, month: int, day: int)
    requires Consistent(st)
    ensures OnDay(AsyncRead(st, thing, year, month, day), ShardId(thing, year, month, day))
  {
    ShardNameRoundTrip(st.root, thing, year, month, day);
  }

  /**
   * Before any flush, a stored record is readable only when the day's shard
   * file already exists and parses: then it is the last record returned;
   * otherwise the read returns nothing at all.
   */
  lemma WriteThenReadBeforeFlush(st: Store, thing: string, args: map<string, string>, now: DateTime,
                                 parseFloat: string -> Option<real>)
    requires st.buffer.Valid()
    requires Write(st, thing, args, now, parseFloat).1.status == OK
    ensures var (st', resp) := Write(st, thing, args, now, parseFloat);
      var data := AsyncRead(st', thing, now.date.year, now.date.month, now.date.day);
      var p := ShardAt(st.root, thing, now);
      && (p in st.disk && st.disk[p].Parsed? ==> |data| > 0 && data[|data| - 1] == resp.body.record)
      && (!(p in st.disk && st.disk[p].Parsed?) ==> data == [])
  {
  }

  /**
   * A stored record survives the flush: once a flush completes, reading
   * its day (with the date written as plain numbers) answers 200 and
   * returns the record.
   */
  lemma WriteFlushRead(st: Store, thing: string, args: map<string, string>, now: DateTime,
                       parseFloat: string -> Option<real>,
                       fails: set<Path>, afterDumpCmd: string, later: DateTime, exitCode: int)
    requires FlushReady(st.buffer) && ValidDateTime(later)
    requires Write(st, thing, args, now, parseFloat).1.status == OK
    requires var st1 := Write(st, thing, args, now, parseFloat).0;
      DumpBuf(st1, fails, afterDumpCmd, later, exitCode).1.Completed?
    ensures var (st1, resp) := Write(st, thing, args, now, parseFloat);
      var st2 := DumpBuf(st1, fails, afterDumpCmd, later, exitCode).0;
      var answer := Read(st2, thing, Str(now.date.year), Str(now.date.month), Str(now.date.day));
      answer.status == OK && resp.body.record in answer.body.records
  {
    var (st1, resp) := Write(st, thing, args, now, parseFloat);
    var rec := resp.body.record;
    var p := ShardAt(st.root, thing, now);
    WriteAppends(st, thing, args, now, parseFloat);
    ShardNameIsShardFile(st.root, thing, now.date.year, now.date.month, now.date.day);
    AppendKeepsFlushReady(st.buffer, p, rec);
    var st2 := DumpBuf(st1, fails, afterDumpCmd, later, exitCode).0;
    var drained := st1.buffer.entries[p];
    assert rec in drained;
    assert Persisted(st1.disk, st2.disk, p, drained);
    FlushedRecordReadable(st1.disk, st2, p, drained, rec);
    ReadOfStoredRecord(st2, thing, now.date, rec);
  }

  /** A record in a day's parsed shard makes the read of that day answer 200 with it. */
  lemma ReadOfStoredRecord(st: Store, thing: string, day: Date, rec: Record)
    requires var p := ShardName(st.root, thing, day.year, day.month, day.day);
      p in st.disk && st.disk[p].Parsed? && rec in st.disk[p].records
    ensures var answer := Read(st, thing, Str(day.year), Str(day.month), Str(day.day));
      answer.status == OK && rec in answer.body.records
  {
    PadRoundTrip(day.year, 0);
    PadRoundTrip(day.month, 0);
    PadRoundTrip(day.day, 0);
  }

  /** A drained record is in the file its shard was persisted to, and a read of that shard returns it. */
  lemma FlushedRecordReadable(disk: Disk, st2: Store, p: Path, drained: seq<Record>, rec: Record)
    requires IsShardFile(p) && Persisted(disk, st2.disk, p, drained) && rec in drained
    ensures st2.disk[p].Parsed? && rec in st2.disk[p].records
  {
    var prior := Existing(disk, p);
    var merged := Merge(disk, p, drained);
    assert rec in multiset(merged[|prior|..]);
    assert merged == merged[..|prior|] + merged[|prior|..];
  }

  /**
   * A merged shard is fully in timestamp order when its old content was,
   * and nothing in it is later than the drained records.
   */
  lemma MergeSortedWhenAppendedInOrder(disk: Disk, shard: Path, drained: seq<Record>)
    requires SortedBy(Existing(disk, shard), ByTimestamp)
    requires forall a, b :: a in Existing(disk, shard) && b in drained ==> ByTimestamp(a, b)
    ensures SortedBy(Merge(disk, shard, drained), ByTimestamp)
  {
    var prior := Existing(disk, shard);
    var m := Merge(disk, shard, drained);
    var tail := m[|prior|..];
    forall i, j | 0 <= i < |prior| && 0 <= j < |tail|
      ensures ByTimestamp(prior[i], tail[j])
    {
      assert tail[j] in multiset(drained);
    }
    ConcatSorted(prior, tail, ByTimestamp);
    assert m == prior + tail;
  }

  /**
   * Drained records with the same timestamp keep their arrival order in the
   * merged shard.
   */
  lemma MergeKeepsArrivalOrderOfTies(disk: Disk, shard: Path, drained: seq<Record>, x: Record)
    ensures Equivalents(Merge(disk, shard, drained)[|Existing(disk, shard)|..], x, ByTimestamp)
         == Equivalents(drained, x, ByTimestamp)
    ensures WithTimestamp(Merge(disk, shard, drained)[|Existing(disk, shard)|..], x.timestamp)
         == WithTimestamp(drained, x.timestamp)
  {
    ByTimestampTotalPreorder();
    SortByStable(drained, x, ByTimestamp);
    var prior := Existing(disk, shard);
    assert Merge(disk, shard, drained)[|prior|..] == SortBy(drained, ByTimestamp);
    EquivalentsByTimestamp(SortBy(drained, ByTimestamp), x);
    EquivalentsByTimestamp(drained, x);
  }
}

=== FILE: lightlog_store.dfy ===
/**
 * The lightlog store: records, the in-memory write buffer, the shard files
 * on disk, and the `write`, `read` and `async_read` request handlers.
 */
module LightlogStore {
  import opened Wrappers
  import opened Decimal
  import opened Calendar
  import opened LightlogPaths

  /**
   * One sample: named numeric fields plus the instant the server stamped.
   * Python keeps both in one dict; `AsDict` gives that view.
   */
  datatype Record = Record(fields: map<string, real>, timestamp: DateTime)

  /** A value of the record dict: a float field or the `timestamp` entry. */
  datatype Value = Number(x: real) | Time(t: DateTime)

  const TimestampKey := "timestamp"

  /** The record as the Python dict that `write` builds and `jsonize` serialises. */
  function AsDict(r: Record): (d: map<string, Value>)
    ensures d.Keys == r.fields.Keys + {TimestampKey}
    ensures d[TimestampKey] == Time(r.timestamp)
  {
    (map k | k in r.fields :: Number(r.fields[k]))[TimestampKey := Time(r.timestamp)]
  }

  /** A shard file's contents: the records when its JSON parses, or unreadable. */
  datatype Shard = Parsed(records: seq<Record>) | Corrupt

  /** The store directory: a path is absent when opening it fails. */
  type Disk = map<Path, Shard>

  /**
   * `write_buffer`: records not yet flushed, keyed by shard path, with the
   * keys in the insertion order the Python dict iterates them in.
   */
  datatype Buffer = Buffer(order: seq<Path>, entries: map<Path, seq<Record>>) {
    predicate Valid() {
      && (forall i, j :: 0 <= i < j < |order| ==> order[i] != order[j])
      && entries.Keys == (set p | p in order)
    }

    predicate IsEmpty() {
      entries == map[]
    }

    /** The records buffered for `p` (`write_buffer.get(p, [])`). */
    function Get(p: Path): seq<Record> {
      if p in entries then entries[p] else []
    }
  }

  const EmptyBuffer := Buffer([], map[])

  /** The server's state: configured store root, the buffer, and the disk. */
  datatype Store = Store(root: Path, buffer: Buffer, disk: Disk)

  /** A JSON response body. */
  datatype Body = ErrorBody(error: string) | RecordBody(record: Record) | ArrayBody(records: seq<Record>)

  /** An HTTP response; `anyOrigin` is the `Access-Control-Allow-Origin: *` header. */
  datatype Response = Response(status: int, body: Body, anyOrigin: bool)

  const OK := 200
  const BadRequest := 400
  const NotFound := 404
  const OnlyFloats := "only floats supported"
  const InvalidDate := "invalid numbers in date"

  /**
   * `write_buffer[key] = write_buffer.get(key, []) + [buf]`: a new key joins
   * the end of the iteration order, an existing one keeps its place.
   */
  function Append(b: Buffer, key: Path, r: Record): (b': Buffer)
    requires b.Valid()
    ensures b'.Valid()
    ensures b'.Get(key) == b.Get(key) + [r]
    ensures forall p :: p != key ==> (p in b'.entries <==> p in b.entries) && b'.Get(p) == b.Get(p)
    ensures b'.order == if key in b.entries then b.order else b.order + [key]
  {
    if key in b.entries then Buffer(b.order, b.entries[key := b.entries[key] + [r]])
    else Buffer(b.order + [key], b.entries[key := [r]])
  }

  /**
   * The dict comprehension `{k: float(v[0]) ...}`: every argument parsed, or
   * `None` as soon as one of them does not parse.
   */
  function ParseFields(args: map<string, string>, parseFloat: string -> Option<real>): (r: Option<map<string, real>>)
    ensures r.None? <==> exists k :: k in args && parseFloat(args[k]).None?
    ensures r.Some? ==> r.value.Keys == args.Keys && forall k :: k in args ==> Some(r.value[k]) == parseFloat(args[k])
  {
    if forall k | k in args :: parseFloat(args[k]).Some? then
      Some(map k | k in args :: parseFloat(args[k]).value)
    else None
  }

  /**
   * The record `write` stores for the parsed fields at instant `now`;
   * the stamped `timestamp` replaces a field of that name.
   */
  function Stamp(fields: map<string, real>, now: DateTime): (r: Record)
    ensures AsDict(r).Keys == fields.Keys + {TimestampKey}
    ensures AsDict(r)[TimestampKey] == Time(now)
    ensures forall k :: k in fields && k != TimestampKey ==> AsDict(r)[k] == Number(fields[k])
  {
    Record(fields - {TimestampKey}, now)
  }

  /** The shard a record stamped at `t` belongs to. */
  function ShardAt(root: Path, thing: string, t: DateTime): Path {
    ShardName(root, thing, t.date.year, t.date.month, t.date.day)
  }

  /**
   * `POST /write/<thing>`: each argument's first value is parsed as a float
   * by `parseFloat`; `now` is the clock reading `datetime.utcnow()`.
   */
  function Write(st: Store, thing: string, args: map<string, string>, now: DateTime,
                 parseFloat: string -> Option<real>): (r: (Store, Response))
    requires st.buffer.Valid()
    ensures r.0.buffer.Valid() && r.0.root == st.root && r.0.disk == st.disk
    ensures r.1.status == BadRequest <==> exists k :: k in args && parseFloat(args[k]).None?
    ensures r.1.status == BadRequest ==> r.0 == st && r.1.body == ErrorBody(OnlyFloats)
    ensures r.1.status != BadRequest ==>
      && r.1.status == OK
      && r.1.body.RecordBody?
      && var rec := r.1.body.record;
      && var key := ShardAt(st.root, thing, now);
      && AsDict(rec).Keys == args.Keys + {TimestampKey}
      && AsDict(rec)[TimestampKey] == Time(now)
      && (forall k :: k in args && k != TimestampKey ==> Some(AsDict(rec)[k].x) == parseFloat(args[k]))
      && r.0.buffer.Get(key) == st.buffer.Get(key) + [rec]
      && (forall p :: p != key ==> (p in r.0.buffer.entries <==> p in st.buffer.entries) && r.0.buffer.Get(p) == st.buffer.Get(p))
    ensures !r.1.anyOrigin
  {
    match ParseFields(args, parseFloat)
    case None => (st, Response(BadRequest, ErrorBody(OnlyFloats), false))
    case Some(fields) =>
      var rec := Stamp(fields, now);
      var key := ShardAt(st.root, thing, now);
      (st.(buffer := Append(st.buffer, key, rec)), Response(OK, RecordBody(rec), false))
  }

  /**
   * `async_read`: the shard's records followed by those still buffered for
   * the same path; nothing at all, buffer included, when the shard file is
   * missing or its JSON does not parse.
   */
  function AsyncRead(st: Store, thing: string, year: int, month: int, day: int): (r: seq<Record>)
    ensures var p := ShardName(st.root, thing, year, month, day);
      if p in st.disk && st.disk[p].Parsed? then r == st.disk[p].records + st.buffer.Get(p) else r == []
  {
    var p := ShardName(st.root, thing, year, month, day);
    if p !in st.disk then []
    else match st.disk[p]
      case Corrupt => []
      case Parsed(records) => records + st.buffer.Get(p)
  }

  /**
   * `GET /read/<thing>/<year>/<month>/<day>.json`: the date segments are
   * parsed with `int`; the answer is 404 when there is no data, still with
   * the (empty) array as body.
   */
  function Read(st: Store, thing: string, year: string, month: string, day: string): (r: Response)
    ensures r.anyOrigin
    ensures r.status == BadRequest <==> ParseInt(year).None? || ParseInt(month).None? || ParseInt(day).None?
    ensures r.status == BadRequest ==> r.body == ErrorBody(InvalidDate)
    ensures r.status != BadRequest ==>
      && r.body == ArrayBody(AsyncRead(st, thing, ParseInt(year).value, ParseInt(month).value, ParseInt(day).value))
      && (r.status == NotFound <==> r.body.records == [])
      && (r.status == OK <==> r.body.records != [])
  {
    match (ParseInt(year), ParseInt(month), ParseInt(day))
    case (Some(y), Some(m), Some(d)) =>
      var data := AsyncRead(st, thing, y, m, d);
      Response(if data == [] then NotFound else OK, ArrayBody(data), true)
    case _ => Response(BadRequest, ErrorBody(InvalidDate), true)
  }
}

=== FILE: sorting.dfy ===
/**
 * Python's `list.sort(key=...)` and `sorted(...)`: a stable sort under a
 * "less than or equal" relation, written as an insertion sort.
 */
module Sorting {

  ghost predicate Total<T(!new)>(leq: (T, T) -> bool) {
    forall a, b :: leq(a, b) || leq(b, a)
  }

  ghost predicate Transitive<T(!new)>(leq: (T, T) -> bool) {
    forall a, b, c :: leq(a, b) && leq(b, c) ==> leq(a, c)
  }

  ghost predicate TotalPreorder<T(!new)>(leq: (T, T) -> bool) {
    Total(leq) && Transitive(leq)
  }

  ghost predicate Antisymmetric<T(!new)>(leq: (T, T) -> bool) {
    forall a, b :: leq(a, b) && leq(b, a) ==> a == b
  }

  ghost predicate SortedBy<T>(s: seq<T>, leq: (T, T) -> bool) {
    forall i, j :: 0 <= i < j < |s| ==> leq(s[i], s[j])
  }

  /** The elements of `s` that `leq` cannot tell apart from `x`, in their order in `s`. */
  function Equivalents<T>(s: seq<T>, x: T, leq: (T, T) -> bool): seq<T> {
    if s == [] then []
    else if leq(x, s[0]) && leq(s[0], x) then [s[0]] + Equivalents(s[1..], x, leq)
    else Equivalents(s[1..], x, leq)
  }

  /** Puts `x` in front of the first element it is not greater than. */
  function Insert<T>(x: T, s: seq<T>, leq: (T, T) -> bool): (r: seq<T>)
    ensures multiset(r) == multiset(s) + multiset{x}
    ensures |r| == |s| + 1
  {
    if s == [] || leq(x, s[0]) then [x] + s
    else
      assert s == [s[0]] + s[1..];
      [s[0]] + Insert(x, s[1..], leq)
  }

  /** `s` sorted by `leq`, keeping equivalent elements in their original order. */
  function SortBy<T>(s: seq<T>, leq: (T, T) -> bool): (r: seq<T>)
    ensures multiset(r) == multiset(s)
    ensures |r| == |s|
  {
    if s == [] then []
    else
      assert s == [s[0]] + s[1..];
      Insert(s[0], SortBy(s[1..], leq), leq)
  }

  lemma {:induction false} InsertSorted<T(!new)>(x: T, s: seq<T>, leq: (T, T) -> bool)
    requires TotalPreorder(leq) && SortedBy(s, leq)
    ensures SortedBy(Insert(x, s, leq), leq)
    decreases |s|
  {
    if s != [] && !leq(x, s[0]) {
      InsertSorted(x, s[1..], leq);
      var r := Insert(x, s, leq);
      var t := Insert(x, s[1..], leq);
      assert r == [s[0]] + t;
      forall k | 0 <= k < |t|
        ensures leq(s[0], t[k])
      {
        assert t[k] in multiset(t);
        assert t[k] == x || t[k] in multiset(s[1..]);
        if t[k] != x {
          var m :| 0 <= m < |s[1..]| && s[1..][m] == t[k];
          assert s[m + 1] == t[k];
        }
      }
    }
  }

  /** The result of the sort is ordered. */
  lemma {:induction false} SortBySorted<T(!new)>(s: seq<T>, leq: (T, T) -> bool)
    requires TotalPreorder(leq)
    ensures SortedBy(SortBy(s, leq), leq)
    decreases |s|
  {
    if s != [] {
      SortBySorted(s[1..], leq);
      InsertSorted(s[0], SortBy(s[1..], leq), leq);
    }
  }

  lemma {:induction false} InsertStable<T(!new)>(x: T, s: seq<T>, y: T, leq: (T, T) -> bool)
    requires Transitive(leq)
    ensures Equivalents(Insert(x, s, leq), y, leq)
         == if leq(y, x) && leq(x, y) then [x] + Equivalents(s, y, leq) else Equivalents(s, y, leq)
    decreases |s|
  {
    if s == [] || leq(x, s[0]) {
      assert ([x] + s)[1..] == s;
    } else {
      InsertStable(x, s[1..], y, leq);
      var r := Insert(x, s, leq);
      assert r[1..] == Insert(x, s[1..], leq);
    }
  }

  /**
   * Stability: for every element, the elements equivalent to it appear in
   * the result in exactly the order they had in the input.
   */
  lemma {:induction false} SortByStable<T(!new)>(s: seq<T>, y: T, leq: (T, T) -> bool)
    requires Transitive(leq)
    ensures Equivalents(SortBy(s, leq), y, leq) == Equivalents(s, y, leq)
    decreases |s|
  {
    if s != [] {
      SortByStable(s[1..], y, leq);
      InsertStable(s[0], SortBy(s[1..], leq), y, leq);
    }
  }

  /** Two ordered runs, the first entirely below the second, form an ordered sequence. */
  lemma ConcatSorted<T>(a: seq<T>, b: seq<T>, leq: (T, T) -> bool)
    requires SortedBy(a, leq) && SortedBy(b, leq)
    requires forall i, j :: 0 <= i < |a| && 0 <= j < |b| ==> leq(a[i], b[j])
    ensures SortedBy(a + b, leq)
  {
    var c := a + b;
    forall i, j | 0 <= i < j < |c|
      ensures leq(c[i], c[j])
    {
      if j < |a| {
        assert c[i] == a[i] && c[j] == a[j];
      } else if i >= |a| {
        assert c[i] == b[i - |a|] && c[j] == b[j - |a|];
      } else {
        assert c[i] == a[i] && c[j] == b[j - |a|];
      }
    }
  }

  /** The head of a sorted sequence is below every other element of it. */
  lemma HeadIsLeast<T>(s: seq<T>, x: T, leq: (T, T) -> bool)
    requires SortedBy(s, leq) && x in s
    ensures x == s[0] || leq(s[0], x)
  {
    var j :| 0 <= j < |s| && s[j] == x;
    if j > 0 {
      assert leq(s[0], s[j]);
    }
  }

  /** Removing the same first element from two sequences with the same elements. */
  lemma SameTails<T>(a: seq<T>, b: seq<T>)
    requires a != [] && b != [] && a[0] == b[0] && multiset(a) == multiset(b)
    ensures multiset(a[1..]) == multiset(b[1..])
  {
    assert a == [a[0]] + a[1..] && b == [b[0]] + b[1..];
    calc {
      multiset(a[1..]);
      multiset(a) - multiset{a[0]};
      multiset(b) - multiset{b[0]};
      multiset(b[1..]);
    }
  }

  lemma SortedTail<T>(s: seq<T>, leq: (T, T) -> bool)
    requires s != [] && SortedBy(s, leq)
    ensures SortedBy(s[1..], leq)
  {
  }

  /**
   * Under an antisymmetric relation there is only one sorted arrangement of
   * a multiset: two sorted sequences with the same elements are equal.
   */
  lemma {:induction false} SortedPermutationUnique<T(!new)>(a: seq<T>, b: seq<T>, leq: (T, T) -> bool)
    requires Antisymmetric(leq) && SortedBy(a, leq) && SortedBy(b, leq)
    requires multiset(a) == multiset(b)
    ensures a == b
    decreases |a|
  {
    if a == [] {
      assert |b| == |multiset(b)| == 0;
    } else {
      assert a[0] in multiset(b);
      HeadIsLeast(b, a[0], leq);
      assert b[0] in multiset(a);
      HeadIsLeast(a, b[0], leq);
      SameTails(a, b);
      SortedTail(a, leq);
      SortedTail(b, leq);
      SortedPermutationUnique(a[1..], b[1..], leq);
      assert a == [a[0]] + a[1..] && b == [b[0]] + b[1..];
    }
  }
}

=== FILE: text.dfy ===
/** String helpers with Python's meaning: `split`, `join`, `startswith`, `rsplit`, `upper`, and `<=` on `str`. */
module Text {

  predicate StartsWith(s: string, prefix: string) {
    |s| >= |prefix| && s[..|prefix|] == prefix
  }

  /** The position of the first `c` in `s`. */
  function IndexOf(s: string, c: char): (i: nat)
    requires c in s
    ensures i < |s| && s[i] == c && c !in s[..i]
  {
    if s[0] == c then 0
    else
      assert c in s[1..] by {
        var k :| 0 <= k < |s| && s[k] == c;
        assert s[1..][k - 1] == c;
      }
      var j := IndexOf(s[1..], c);
      assert s[..j + 1] == [s[0]] + s[1..][..j];
      j + 1
  }

  /** `s.split(sep)` for a one-character separator. */
  function Split(s: string, sep: char): (r: seq<string>)
    ensures |r| > 0
    decreases |s|
  {
    if sep !in s then [s]
    else
      var i := IndexOf(s, sep);
      [s[..i]] + Split(s[i + 1..], sep)
  }

  /** `sep.join(parts)`. */
  function JoinWith(parts: seq<string>, sep: char): string
    requires |parts| > 0
  {
    if |parts| == 1 then parts[0] else parts[0] + [sep] + JoinWith(parts[1..], sep)
  }

  /** Splitting a join at its separator gives the parts back, when no part contains it. */
  lemma {:induction false} SplitJoin(parts: seq<string>, sep: char)
    requires |parts| > 0
    requires forall i :: 0 <= i < |parts| ==> sep !in parts[i]
    ensures Split(JoinWith(parts, sep), sep) == parts
    decreases |parts|
  {
    if |parts| > 1 {
      var p0 := parts[0];
      var rest := JoinWith(parts[1..], sep);
      var s := JoinWith(parts, sep);
      assert s == p0 + [sep] + rest;
      assert s[|p0|] == sep;
      var i := IndexOf(s, sep);
      assert s[..i] == p0;
      assert s[i + 1..] == rest;
      SplitJoin(parts[1..], sep);
    }
  }

  /** `name.rsplit("-", 1)[1]` on a name holding a dash: the text after its last dash. */
  function AfterLast(s: string, c: char): (r: string)
    requires c in s
    ensures c !in r && |r| < |s| && s[|s| - |r| - 1] == c && s[|s| - |r|..] == r
    decreases |s|
  {
    if s[|s| - 1] == c then []
    else
      var init := s[..|s| - 1];
      assert c in init by {
        var k :| 0 <= k < |s| && s[k] == c;
        assert init[k] == c;
      }
      var r := AfterLast(init, c);
      assert init[|init| - |r|..] + [s[|s| - 1]] == s[|s| - |r| - 1..];
      r + [s[|s| - 1]]
  }

  function UpperChar(c: char): char {
    if 'a' <= c <= 'z' then (c as int - 32) as char else c
  }

  /** `s.upper()` on ASCII letters. */
  function Upper(s: string): (r: string)
    ensures |r| == |s|
    ensures forall i :: 0 <= i < |s| ==> r[i] == UpperChar(s[i])
  {
    seq(|s|, i requires 0 <= i < |s| => UpperChar(s[i]))
  }

  /** Python's `a <= b` on strings: code point by code point, a prefix first. */
  predicate LexLeq(a: string, b: string) {
    a == [] || (b != [] && (a[0] < b[0] || (a[0] == b[0] && LexLeq(a[1..], b[1..]))))
  }

  /** Two strings first differ at `k`, where `a` has the smaller character. */
  ghost predicate SmallerAt(a: string, b: string, k: int) {
    0 <= k < |a| && k < |b| && a[..k] == b[..k] && a[k] < b[k]
  }

  /**
   * `LexLeq` is the usual order: `a` is a prefix of `b`, or at the first
   * position where they differ `a` has the smaller character.
   */
  lemma {:induction false} LexLeqFirstDifference(a: string, b: string)
    ensures LexLeq(a, b) <==> (a <= b || exists k :: SmallerAt(a, b, k))
    decreases |a|
  {
    if a != [] && b != [] {
      if a[0] < b[0] {
        assert SmallerAt(a, b, 0);
      } else if a[0] == b[0] {
        LexLeqFirstDifference(a[1..], b[1..]);
        if a[1..] <= b[1..] {
          assert a == [a[0]] + a[1..] && b == [b[0]] + b[1..];
        }
        if exists k :: SmallerAt(a[1..], b[1..], k) {
          var k :| SmallerAt(a[1..], b[1..], k);
          assert a[..k + 1] == [a[0]] + a[1..][..k] && b[..k + 1] == [b[0]] + b[1..][..k];
          assert SmallerAt(a, b, k + 1);
        }
        if exists k :: SmallerAt(a, b, k) {
          var k :| SmallerAt(a, b, k);
          assert k > 0;
          assert a[1..][..k - 1] == a[..k][1..] && b[1..][..k - 1] == b[..k][1..];
          assert SmallerAt(a[1..], b[1..], k - 1);
        }
        if a <= b {
          assert a[1..] <= b[1..];
        }
      }
    }
  }

  lemma {:induction false} LexLeqTotal(a: string, b: string)
    ensures LexLeq(a, b) || LexLeq(b, a)
    decreases |a|
  {
    if a != [] && b != [] && a[0] == b[0] {
      LexLeqTotal(a[1..], b[1..]);
    }
  }

  lemma {:induction false} LexLeqTransitive(a: string, b: string, c: string)
    requires LexLeq(a, b) && LexLeq(b, c)
    ensures LexLeq(a, c)
    decreases |a|
  {
    if a != [] && b != [] && c != [] && a[0] == b[0] && b[0] == c[0] {
      LexLeqTransitive(a[1..], b[1..], c[1..]);
    }
  }

  lemma {:induction false} LexLeqAntisymmetric(a: string, b: string)
    requires LexLeq(a, b) && LexLeq(b, a)
    ensures a == b
    decreases |a|
  {
    if a != [] {
      LexLeqAntisymmetric(a[1..], b[1..]);
      assert a == [a[0]] + a[1..] && b == [b[0]] + b[1..];
    }
  }
}

=== FILE: vpnbox_telegram.dfy ===
/**
 * The decision logic of the VPN-box Telegram bot: configuration checks,
 * who may talk to the bot, the VPN menu, which command a button runs, and
 * the text of the reply.
 */
module VpnboxTelegram {
  import opened Wrappers
  import opened Decimal
  import opened Sorting
  import opened Text

  /** The configuration file as loaded, before validation; `None` is a missing or null `vpn_flavours`. */
  datatype RawConfig = RawConfig(apiKey: string, authorizedChatIds: seq<int>, vpnFlavours: Option<seq<string>>)

  /** `BotConfig` after validation. */
  datatype BotConfig = BotConfig(apiKey: string, authorizedChatIds: seq<int>, vpnFlavours: seq<string>)

  const ProgramPrefix := "vpnbox-"
  const NoFlavours := "vpn_flavours must have at least one entry"

  /** The installed programs `Path("/usr/local/sbin").glob("vpnbox-*")` finds, by file name. */
  function VpnPrograms(fileNames: seq<string>): (r: seq<string>)
    ensures forall i :: 0 <= i < |r| ==> StartsWith(r[i], ProgramPrefix)
    ensures forall n :: n in r <==> n in fileNames && StartsWith(n, ProgramPrefix)
    ensures forall n :: multiset(r)[n] == if StartsWith(n, ProgramPrefix) then multiset(fileNames)[n] else 0
  {
    if fileNames == [] then []
    else
      assert fileNames == [fileNames[0]] + fileNames[1..];
      if StartsWith(fileNames[0], ProgramPrefix) then [fileNames[0]] + VpnPrograms(fileNames[1..])
      else VpnPrograms(fileNames[1..])
  }

  /** `x.name.rsplit("-", 1)[1]`: the flavour a `vpnbox-*` program connects to. */
  function FlavourOf(program: string): (f: string)
    requires StartsWith(program, ProgramPrefix)
    ensures '-' !in f && |f| <= |program| - |ProgramPrefix|
    ensures program[|program| - |f| - 1] == '-' && program[|program| - |f|..] == f
  {
    assert program[6] == '-';
    AfterLast(program, '-')
  }

  function FlavoursOf(programs: seq<string>): (r: seq<string>)
    requires forall i :: 0 <= i < |programs| ==> StartsWith(programs[i], ProgramPrefix)
    ensures |r| == |programs| && forall i :: 0 <= i < |r| ==> r[i] == FlavourOf(programs[i])
  {
    if programs == [] then [] else [FlavourOf(programs[0])] + FlavoursOf(programs[1..])
  }

  /** The flavours `autofill_vpn_flavours` derives from the installed programs, in sorted order. */
  function InstalledFlavours(fileNames: seq<string>): (r: seq<string>)
    ensures multiset(r) == multiset(FlavoursOf(VpnPrograms(fileNames)))
    ensures SortedBy(r, LexLeq)
    ensures forall f :: f in r ==> '-' !in f
  {
    LexLeqTotalPreorder();
    SortBySorted(FlavoursOf(VpnPrograms(fileNames)), LexLeq);
    var r := SortBy(FlavoursOf(VpnPrograms(fileNames)), LexLeq);
    assert forall f :: f in r ==> f in multiset(FlavoursOf(VpnPrograms(fileNames)));
    r
  }

  lemma LexLeqTotalPreorder()
    ensures TotalPreorder(LexLeq)
  {
    forall a, b ensures LexLeq(a, b) || LexLeq(b, a) {
      LexLeqTotal(a, b);
    }
    forall a, b, c | LexLeq(a, b) && LexLeq(b, c) ensures LexLeq(a, c) {
      LexLeqTransitive(a, b, c);
    }
  }

  /**
   * The installed flavours are the only sorted arrangement of the flavours
   * found on disk: any list holding the same names, sorted, is this one.
   */
  lemma InstalledFlavoursUnique(fileNames: seq<string>, s: seq<string>)
    requires multiset(s) == multiset(FlavoursOf(VpnPrograms(fileNames)))
    requires SortedBy(s, LexLeq)
    ensures s == InstalledFlavours(fileNames)
  {
    forall a, b | LexLeq(a, b) && LexLeq(b, a) ensures a == b {
      LexLeqAntisymmetric(a, b);
    }
    SortedPermutationUnique(s, InstalledFlavours(fileNames), LexLeq);
  }

  /** `autofill_vpn_flavours`: a missing or empty list is replaced by the installed flavours. */
  function AutofillVpnFlavours(given: Option<seq<string>>, fileNames: seq<string>): (r: seq<string>)
    ensures given.Some? && given.value != [] ==> r == given.value
    ensures given.None? || given.value == [] ==>
      multiset(r) == multiset(FlavoursOf(VpnPrograms(fileNames))) && SortedBy(r, LexLeq)
  {
    if given.Some? && given.value != [] then given.value else InstalledFlavours(fileNames)
  }

  /** `check_vpn_flavours`: a configuration without any flavour is rejected. */
  function CheckVpnFlavours(c: BotConfig): (r: Result<BotConfig>)
    ensures r.Failure? <==> c.vpnFlavours == []
    ensures r.Failure? ==> r.error == NoFlavours
    ensures r.Success? ==> r.value == c
  {
    if c.vpnFlavours == [] then Failure(NoFlavours) else Success(c)
  }

  /** Validating a configuration: the `before` validator, then the `after` one. */
  function ValidateConfig(raw: RawConfig, fileNames: seq<string>): (r: Result<BotConfig>)
    ensures r.Success? ==> r.value.vpnFlavours != [] && r.value.authorizedChatIds == raw.authorizedChatIds
    ensures r.Success? ==> r.value.apiKey == raw.apiKey
    ensures r.Success? && raw.vpnFlavours.Some? && raw.vpnFlavours.value != [] ==>
              r.value.vpnFlavours == raw.vpnFlavours.value
    ensures r.Success? && (raw.vpnFlavours.None? || raw.vpnFlavours.value == []) ==>
              r.value.vpnFlavours == InstalledFlavours(fileNames)
    ensures r.Failure? ==> r.error == NoFlavours
  {
    CheckVpnFlavours(BotConfig(raw.apiKey, raw.authorizedChatIds, AutofillVpnFlavours(raw.vpnFlavours, fileNames)))
  }

  /**
   * A configuration is accepted exactly when it lists a flavour itself or
   * some `vpnbox-*` program is installed.
   */
  lemma ValidateConfigAccepts(raw: RawConfig, fileNames: seq<string>)
    ensures ValidateConfig(raw, fileNames).Success? <==>
      (raw.vpnFlavours.Some? && raw.vpnFlavours.value != []) || exists n :: n in fileNames && StartsWith(n, ProgramPrefix)
  {
    InstalledFlavoursEmpty(fileNames);
  }

  /** No flavour is found exactly when no `vpnbox-*` program is installed. */
  lemma InstalledFlavoursEmpty(fileNames: seq<string>)
    ensures InstalledFlavours(fileNames) == [] <==> !exists n :: n in fileNames && StartsWith(n, ProgramPrefix)
  {
    var programs := VpnPrograms(fileNames);
    assert |InstalledFlavours(fileNames)| == |FlavoursOf(programs)| == |programs|;
    if programs != [] {
      assert programs[0] in programs;
    }
  }

  /** `FilterAuthorizedChatId.check_update`: only the configured chats pass. */
  function CheckUpdate(chatId: int, authorized: seq<int>): (r: bool)
    ensures r <==> exists i :: 0 <= i < |authorized| && authorized[i] == chatId
  {
    chatId in authorized
  }

  /** An inline keyboard button: what it shows and what it sends back. */
  datatype Button = Button(text: string, callbackData: string)

  const DisconnectChoice := "disconnect"
  const DisconnectButton := Button("\U{274C} Disconnect", DisconnectChoice)
  const MenuText := "Choose the *VPN variant* you want to connect to:"

  /** `_prepare_vpn_menu`: one row with a button per flavour, then a row with the disconnect button. */
  function PrepareVpnMenu(flavours: seq<string>): (r: (string, seq<seq<Button>>))
    ensures r.0 == MenuText
    ensures |r.1| == 2 && r.1[1] == [DisconnectButton]
    ensures |r.1[0]| == |flavours|
    ensures forall i :: 0 <= i < |flavours| ==>
      r.1[0][i].callbackData == flavours[i] && |r.1[0][i].text| == |flavours[i]|
      && forall k :: 0 <= k < |flavours[i]| ==> r.1[0][i].text[k] == UpperChar(flavours[i][k])
  {
    (MenuText, [seq(|flavours|, i requires 0 <= i < |flavours| => Button(Upper(flavours[i]), flavours[i])), [DisconnectButton]])
  }

  /** The program and arguments `handle_reply_to_start` runs for a button's data. */
  function CommandFor(choice: string, flavours: seq<string>): (cmd: seq<string>)
    requires |flavours| > 0
    ensures |cmd| == 2 && StartsWith(cmd[0], ProgramPrefix)
    ensures cmd[1] == "--disconnect" <==> choice == DisconnectChoice
    ensures cmd[1] == "--connect" <==> choice != DisconnectChoice
    ensures cmd[0][|ProgramPrefix|..] == if choice == DisconnectChoice then flavours[0] else choice
  {
    if choice == DisconnectChoice then [ProgramPrefix + flavours[0], "--disconnect"]
    else [ProgramPrefix + choice, "--connect"]
  }

  /**
   * Every flavour button connects to its own flavour, except one for a
   * flavour literally named `disconnect`, which disconnects the first one.
   */
  lemma MenuButtonsConnect(flavours: seq<string>, i: nat)
    requires 0 < |flavours| && i < |flavours|
    ensures var choice := PrepareVpnMenu(flavours).1[0][i].callbackData;
      && (flavours[i] != DisconnectChoice ==> CommandFor(choice, flavours) == [ProgramPrefix + flavours[i], "--connect"])
      && (flavours[i] == DisconnectChoice ==> CommandFor(choice, flavours)[1] == "--disconnect")
  {
  }

  /** The disconnect row always disconnects the first configured flavour. */
  lemma DisconnectButtonDisconnects(flavours: seq<string>)
    requires |flavours| > 0
    ensures CommandFor(PrepareVpnMenu(flavours).1[1][0].callbackData, flavours) == [ProgramPrefix + flavours[0], "--disconnect"]
  {
  }

  /** `stdout.replace("`", "\\`")`: every backtick gets a backslash in front. */
  function EscapeBackticks(s: string): (r: string)
    ensures |r| >= |s|
    ensures '`' !in s ==> r == s
  {
    if s == [] then []
    else (if s[0] == '`' then "\\`" else [s[0]]) + EscapeBackticks(s[1..])
  }

  /** Drops the backslash in front of each backtick. */
  function UnescapeBackticks(s: string): string
  {
    if s == [] then []
    else if |s| >= 2 && s[0] == '\\' && s[1] == '`' then "`" + UnescapeBackticks(s[2..])
    else [s[0]] + UnescapeBackticks(s[1..])
  }

  /** The escaped output reads back as the output itself. */
  lemma {:induction false} EscapeRoundTrip(s: string)
    ensures UnescapeBackticks(EscapeBackticks(s)) == s
    decreases |s|
  {
    if s != [] {
      EscapeRoundTrip(s[1..]);
      var rest := EscapeBackticks(s[1..]);
      if s[0] == '`' {
        assert EscapeBackticks(s) == "\\`" + rest;
        assert ("\\`" + rest)[2..] == rest;
      } else {
        assert EscapeBackticks(s) == [s[0]] + rest;
        assert ([s[0]] + rest)[1..] == rest;
        if s[0] == '\\' && |rest| > 0 {
          EscapedStart(s[1..]);
        }
      }
    }
  }

  /** An escaped text never starts with a bare backtick. */
  lemma EscapedStart(s: string)
    requires s != []
    ensures EscapeBackticks(s)[0] != '`'
  {
  }

  /** Every backtick in `r` has a backslash right before it. */
  predicate BackticksGuarded(r: string) {
    forall i :: 0 <= i < |r| && r[i] == '`' ==> i > 0 && r[i - 1] == '\\'
  }

  /** Every backtick of the escaped text is preceded by a backslash. */
  lemma {:induction false} EscapedBackticksAreGuarded(s: string)
    ensures BackticksGuarded(EscapeBackticks(s))
    decreases |s|
  {
    if s != [] {
      EscapedBackticksAreGuarded(s[1..]);
      var rest := EscapeBackticks(s[1..]);
      var head: string := if s[0] == '`' then "\\`" else [s[0]];
      var r := head + rest;
      assert r == EscapeBackticks(s);
      forall i | |head| <= i < |r| && r[i] == '`'
        ensures i > 0 && r[i - 1] == '\\'
      {
        if i > |head| {
          assert r[i] == rest[i - |head|] && r[i - 1] == rest[i - 1 - |head|];
        }
      }
    }
  }

  /** The first character of the reply: a check mark for exit code 0, a cross otherwise. */
  function ExitEmoji(code: int): (e: char)
    ensures e == '\U{2705}' <==> code == 0
    ensures code != 0 ==> e == '\U{274C}'
  {
    if code == 0 then '\U{2705}' else '\U{274C}'
  }

  /** The reply up to the opening of the code block that holds the output. */
  function ReplyHead(code: int): (h: string)
    ensures |h| == 12 + |Str(code)| + 18
    ensures h[0] == ExitEmoji(code) && h[12..12 + |Str(code)|] == Str(code)
    ensures h[|h| - 4..] == "```\n"
  {
    var pre := [ExitEmoji(code)] + " Exitcode `";
    var post := "` \\- output:\n\n```\n";
    assert |pre| == 12 && |post| == 18;
    var h := pre + Str(code) + post;
    assert h[12..12 + |Str(code)|] == Str(code);
    assert h[|h| - 4..] == post[14..];
    h
  }

  /** The text `handle_reply_to_start` edits in once the command has finished. */
  function ReplyText(code: int, out: string): (r: string)
    ensures |r| == |ReplyHead(code)| + |EscapeBackticks(out)| + 3
    ensures r[..|ReplyHead(code)|] == ReplyHead(code) && r[|r| - 3..] == "```"
    ensures r[|ReplyHead(code)|..|r| - 3] == EscapeBackticks(out)
  {
    ReplyHead(code) + EscapeBackticks(out) + "```"
  }

  /**
   * From the reply one reads back the exit code, between the first pair of
   * backticks, and the command's output, from the code block.
   */
  lemma ReplyTextReadsBack(code: int, out: string)
    ensures ReplyText(code, out)[0] == '\U{2705}' <==> code == 0
    ensures 12 + |Str(code)| <= |ReplyHead(code)|
    ensures ParseInt(ReplyText(code, out)[12..12 + |Str(code)|]) == Some(code)
    ensures UnescapeBackticks(ReplyText(code, out)[|ReplyHead(code)|..|ReplyText(code, out)| - 3]) == out
  {
    var r := ReplyText(code, out);
    var h := ReplyHead(code);
    assert r[12..12 + |Str(code)|] == h[12..12 + |Str(code)|];
    PadRoundTrip(code, 0);
    EscapeRoundTrip(out);
  }

  const CannotRun := "\U{274C} Cannot find executable to run"

  /** The first edit: the choice is acknowledged before the command runs. */
  function WaitingText(choice: string): (t: string)
    ensures |t| == 21 + |choice| + 13 && t[0] == '\U{23F3}'
    ensures t[21..21 + |choice|] == choice
  {
    var t := "\U{23F3} You have selected: " + choice + ", please wait";
    assert t[21..21 + |choice|] == choice;
    t
  }

  /** What the command did: missing executable, or its exit code and output. */
  datatype CommandRun = NotFound | Finished(code: int, output: string)

  /**
   * `handle_reply_to_start`: the command for the button pressed and the
   * texts the message is edited to, in order.
   */
  function HandleReplyToStart(choice: string, flavours: seq<string>, run: CommandRun): (r: (seq<string>, seq<string>))
    requires |flavours| > 0
    ensures r.0 == CommandFor(choice, flavours)
    ensures |r.1| == 2 && r.1[0] == WaitingText(choice)
    ensures run.NotFound? ==> r.1[1] == CannotRun
    ensures run.Finished? ==> r.1[1] == ReplyText(run.code, run.output)
  {
    var cmd := CommandFor(choice, flavours);
    match run
    case NotFound => (cmd, [WaitingText(choice), CannotRun])
    case Finished(code, output) => (cmd, [WaitingText(choice), ReplyText(code, output)])
  }
}

=== FILE: wrappers.dfy ===
/** Failure-carrying values shared by the whole model. */
module Wrappers {

  /** A value that may be absent: a missing file, a failed parse. */
  datatype Option<+T> = None | Some(value: T)

  /** Either a value or the error message the source raises instead. */
  datatype Result<+T> = Success(value: T) | Failure(error: string)
}
